=== FILE: README.md ===
# SudokuTracker core, modelled in Dafny

SudokuTracker is a Sudoku web application. This project models its core and
proves properties of it.

**The puzzle engine** works on a 9×9 grid:

- It checks whether a number may be placed in a cell.
- It fills a grid by randomized backtracking.
- It carves a puzzle out of the solved grid by clearing a difficulty-dependent number of shuffled positions.
- It tests a board for completion and correctness.
- It scans a board for duplicated values. Each duplicate cell is reported as an `r{row}c{col}` key.
- It solves a board by deterministic backtracking.
- It formats a timer as `MM:SS`.

**The board editor** of the game screen is a class. It holds the board, the selected cell, the note-mode switch, the completion flag and the error set. Each edit replaces one cell, then recomputes the error set and sets the completion flag when the board matches the solution.

**The in-memory store** holds users and games in two id-keyed tables, each with its own id counter. It supports:

- creation and lookup;
- partial updates;
- a user's history, newest first;
- per-user statistics.

**The history page** provides the filter over completion and difficulty, and the path its replay button opens.

Files:

- `wrappers.dfy`: `Option`.
- `sequences.dfy`: sequences without repeated elements.
- `decimal.dfy`: integer `toString`, `padStart` and decimal read-back.
- `schema.dfy`: cells, boards, difficulty and the stored records.
- `sudoku_rules.dfy`: the grid predicates the engine is specified by. These are placement, conflicts, solutions, duplicate flags and box-scan order.
- `sudoku.dfy`: the engine.
- `notes.dfy`: the pencil-mark list and JavaScript's default sort order.
- `editor.dfy`: the editor.
- `storage.dfy`: the store.
- `history.dfy`: the history page rules.

The comment at client/src/lib/sudoku.ts:101 puts the cells cleared at difficulty 10 near 65. The code computes `30 + floor((d - 1) * 3.5)`, which is 61 at difficulty 10; the model follows the code, and `Sudoku.RemovalCountBounds` proves the range 30..61.

## Model

| member | source | states |
|---|---|---|
| Sudoku.CreateEmptyBoard | client/src/lib/sudoku.ts:4-17 | the result is a 9×9 board whose every cell is `{0, EMPTY, []}` |
| Sudoku.IsValidPlacement | client/src/lib/sudoku.ts:20-47 | returns true iff `num` is absent from the row, the column and the 3×3 box of the cell (the cell itself included) |
| Sudoku.RowLacks | client/src/lib/sudoku.ts:21-25 | returns true iff no cell of the row holds `num` |
| Sudoku.ColumnLacks | client/src/lib/sudoku.ts:28-32 | returns true iff no cell of the column holds `num` |
| Sudoku.BoxLacks | client/src/lib/sudoku.ts:35-44 | returns true iff none of the nine cells of the box, counted from its corner `floor(row / 3) * 3`, `floor(col / 3) * 3`, holds `num` |
| Sudoku.BoxRowLacks | client/src/lib/sudoku.ts:38-42 | returns true iff none of the three cells of one box row, from the box's first column on, holds `num` |
| SudokuRules.CanPlaceIffNoPeerHolds | client/src/lib/sudoku.ts:20-47 | placement is allowed iff no cell sharing a row, column or box with (row, col) holds `num` |
| SudokuRules.PlaceKeepsNoConflicts | client/src/lib/sudoku.ts:66-67 | writing an allowed number into an empty cell of a conflict-free grid leaves it conflict-free |
| SudokuRules.FilledAfterPlace | client/src/lib/sudoku.ts:65-72 | a completion of the grid after an allowed placement is a completion of the grid before it |
| SudokuRules.PlaceShrinksEmpties | client/src/lib/sudoku.ts:66-69 | each placement removes exactly one empty cell, which bounds the recursion |
| SudokuRules.FullGridFilledFromItself | client/src/lib/sudoku.ts:82 | a grid with no empty cell is its own completion, the case where the fill returns true at once |
| Sudoku.Shuffle | client/src/lib/sudoku.ts:60-63 | the Fisher–Yates loop, for any index choices 0 ≤ j ≤ i, leaves a permutation of the array |
| Sudoku.ShuffledDigits | client/src/lib/sudoku.ts:58-63 | the shuffled candidates are nine distinct digits 1..9 |
| Sequences.DistinctPermutation | client/src/lib/sudoku.ts:113-116 | a permutation of a duplicate-free list is duplicate-free |
| Sudoku.FillBoard | client/src/lib/sudoku.ts:53-83 | on true, the grid is the entry grid with every empty cell filled by 1..9 and, if the entry grid was conflict-free, no row, column or box repeats a value; on false, the grid is unchanged |
| Sudoku.GenerateSolvedBoard | client/src/lib/sudoku.ts:50-87 | the result is a full conflict-free grid with values 1..9, unless the fill failed and the grid is all zeros |
| SudokuRules.CompletedZeroGridIsSolution | client/src/lib/sudoku.ts:51-86 | a completion of the all-zero grid that has no conflict is a solution |
| Sudoku.RemovalCountIsFloor | client/src/lib/sudoku.ts:102 | the integer count `30 + 7(d-1)/2` equals `30 + floor((d-1) * 3.5)` |
| Sudoku.RemovalCountBounds | client/src/lib/sudoku.ts:99-102 | the count is 30 at difficulty 1 and 61 at difficulty 10, and grows with the difficulty |
| Sudoku.GivenBoard | client/src/lib/sudoku.ts:137-143 | every cell of the solved board is `{solved value, FILLED, []}` |
| Sudoku.ShuffledPositions | client/src/lib/sudoku.ts:105-116 | the shuffled list holds each of the 81 positions exactly once |
| Sudoku.CreatePuzzle | client/src/lib/sudoku.ts:90-130 | exactly `RemovalCount(d)` distinct cells are `{0, EMPTY, []}`; every other cell is `{solved value, FILLED, []}` |
| Sudoku.GenerateSudoku | client/src/lib/sudoku.ts:133-147 | the solved board is a solution (or the zero grid) with every cell FILLED; the puzzle keeps solved values except at exactly `RemovalCount(d)` empty cells |
| Sudoku.IsBoardComplete | client/src/lib/sudoku.ts:150-159 | returns true iff no cell has value 0 |
| Sudoku.IsBoardCorrect | client/src/lib/sudoku.ts:162-171 | returns true iff the values agree cell by cell, whatever the status and notes |
| Sudoku.Solve | client/src/lib/sudoku.ts:236-258 | on true, the grid completes the entry grid and keeps it conflict-free; on false, it is unchanged |
| Sudoku.SolveSudoku | client/src/lib/sudoku.ts:232-275 | on a result, nonzero cells keep value and status, empty cells get 1..9 and USER_FILLED with their notes kept, and a conflict-free input gives a conflict-free result |
| Sudoku.CellKey | client/src/lib/sudoku.ts:184 | the key of a board cell is four characters, `r`, the row digit, `c`, the column digit |
| Sudoku.HasCellError | client/src/lib/sudoku.ts:278-280 | for a cell of the board, true iff the error set holds a well-formed key whose digits name exactly that row and column |
| Sudoku.CellKeyDecode | client/src/lib/sudoku.ts:184 | every well-formed key is the key of exactly the cell its digits name |
| Sudoku.AddRowErrors | client/src/lib/sudoku.ts:178-190 | adds the key of a cell iff its value is nonzero and occurs further left in its row |
| Sudoku.AddColumnErrors | client/src/lib/sudoku.ts:193-205 | adds the key of a cell iff its value is nonzero and occurs higher up in its column |
| Sudoku.AddBandBoxErrors | client/src/lib/sudoku.ts:209-225 | scanning the three boxes of one band extends the box-scan invariant over its 27 cells |
| Sudoku.AddOneBoxErrors | client/src/lib/sudoku.ts:210-225 | scanning one box extends the box-scan invariant over that box's nine cells |
| Sudoku.AddBoxErrors | client/src/lib/sudoku.ts:208-226 | adds the key of a cell iff its value is nonzero and occurs earlier in its box, in row-major order |
| SudokuRules.BoxScanIndexInjective | client/src/lib/sudoku.ts:208-214 | the box scan visits each cell exactly once |
| Sudoku.GetBoardErrors | client/src/lib/sudoku.ts:174-229 | the set holds `r{r}c{c}` iff cell (r, c) is nonzero and repeats an earlier value of its row, column or box, and holds nothing else |
| SudokuRules.NoFlagsIffNoConflicts | client/src/lib/sudoku.ts:174-229 | no cell is flagged iff the grid has no conflict |
| Sudoku.NoErrorsIffNoConflicts | client/src/lib/sudoku.ts:174-229 | a set of cell keys that holds exactly the keys of the flagged cells is empty iff the board has no conflict, so a duplicate-free board gives the empty set |
| SudokuRules.FirstOccurrenceNotFlagged | client/src/lib/sudoku.ts:174-229 | a cell whose value occurs in no earlier cell, in row-major order, is not flagged: only later occurrences are |
| SudokuRules.ConflictIsFlagged | client/src/lib/sudoku.ts:174-229 | of two equal nonzero values sharing a row, column or box, at least one is flagged |
| SudokuRules.LaterRowDuplicateFlagged | client/src/lib/sudoku.ts:178-190 | of two equal nonzero values in a row, the one further right is flagged |
| SudokuRules.LaterBoxDuplicateFlagged | client/src/lib/sudoku.ts:208-226 | of two equal nonzero values in a box, the one later in row-major order within the box is flagged |
| Sudoku.JsRemainder | client/src/lib/sudoku.ts:285 | JavaScript `%`: it agrees with the mathematical remainder on non-negative numbers and is never positive for negative ones |
| Sudoku.TwoDigits | client/src/lib/sudoku.ts:286 | each part of the display has at least two characters, exactly two below 100, with no leading zero from 10 on, and for a non-negative count it is all digits and parses back to the count |
| Sudoku.ParseClockJoin | client/src/lib/sudoku.ts:286 | minutes, a colon and two digits of seconds below 60 parse back as minutes * 60 + seconds |
| Sudoku.FormatTime | client/src/lib/sudoku.ts:283-287 | the display has at least five characters, and exactly five (`MM:SS`) below 100 minutes |
| Sudoku.FormatTimeJoins | client/src/lib/sudoku.ts:283-287 | for seconds ≥ 0 the display is the padded floored minutes and the padded remainder joined by a colon |
| Sudoku.FormatTimeReadsBack | client/src/lib/sudoku.ts:283-287 | for seconds ≥ 0 the display reads back (through `ParseClock`, its inverse) as exactly that number of seconds |
| Decimal.NatToString | client/src/lib/sudoku.ts:286 | `toString` of a non-negative number is a non-empty digit string, one digit below 10 and two below 100, with no leading zero from 10 on |
| Decimal.IntToString | client/src/lib/sudoku.ts:286 | `toString` of a negative number is `-` followed by digits; neither sign of a number of two or more digits gets a leading zero |
| Decimal.PadStart | client/src/lib/sudoku.ts:286 | `padStart` yields max(length, width) characters: fill characters followed by the original text |
| Decimal.ParseIntToString | client/src/lib/sudoku.ts:286 | reading back what `toString` wrote gives the number |
| Decimal.PadStartKeepsValue | client/src/lib/sudoku.ts:286 | zero padding keeps a digit string's value |
| Notes.ToggleNote | client/src/hooks/useSudoku.ts:116-133 | an absent number is added once and a present number loses one copy; nothing else changes (as multisets) |
| Notes.IndexOf | client/src/hooks/useSudoku.ts:119 | the first position of the number, or -1 exactly when it is absent |
| Notes.RemoveAt | client/src/hooks/useSudoku.ts:127 | the list loses one element, the one at the index |
| Notes.SortNotes | client/src/hooks/useSudoku.ts:124 | the sort keeps the same numbers |
| Notes.SortNotesSorted | client/src/hooks/useSudoku.ts:124 | the sort result is ordered by the default sort order |
| Notes.SortedUnique | client/src/hooks/useSudoku.ts:124 | two ordered lists of the same numbers are equal, so the sort result is determined |
| Notes.NoteLeOnDigits | client/src/hooks/useSudoku.ts:124 | on the digits 0..9 the default text order is the numeric order |
| Notes.NoteLeNotNumeric | client/src/hooks/useSudoku.ts:124 | beyond one digit it is not: 10 sorts before 2 |
| Notes.NoteLeAntisymmetric | client/src/hooks/useSudoku.ts:124 | distinct numbers never tie in the default sort order |
| Notes.ToggleNoteCount | client/src/hooks/useSudoku.ts:121-128 | a toggle adds one copy of an absent number, removes one copy of a present one, and leaves the count of every other number unchanged |
| Notes.ToggleNoteMembership | client/src/hooks/useSudoku.ts:121-128 | on a duplicate-free list the number is present afterwards iff it was absent before; other numbers keep their presence |
| Notes.ToggleNoteInvariants | client/src/hooks/useSudoku.ts:116-133 | sorted notes stay sorted, adding always sorts, and duplicate-free notes stay duplicate-free |
| Notes.ToggleNoteTwice | client/src/hooks/useSudoku.ts:116-133 | toggling the same number twice restores sorted duplicate-free notes |
| SudokuEditor.SetCell | client/src/hooks/useSudoku.ts:113-114 | the copied board differs from the old one in the edited cell only |
| SudokuEditor.EnteredCell | client/src/hooks/useSudoku.ts:136-140 | a value-mode entry gives the value, no notes, status EMPTY for 0 and USER_FILLED for any other value |
| SudokuEditor.NotedCell | client/src/hooks/useSudoku.ts:130-133 | a note-mode entry keeps value and status and toggles the number in the notes |
| SudokuEditor.Editor.constructor | client/src/hooks/useSudoku.ts:36-75 | the board starts as the initial board (or all empty), with nothing selected, value mode, and errors and completion computed for it |
| SudokuEditor.Editor.Settle | client/src/hooks/useSudoku.ts:52-60 | after a board change the error set is exactly the flagged cells, and the flag is set iff it was set or the board is full and matches the solution |
| SudokuEditor.Editor.NewGame | client/src/hooks/useSudoku.ts:43-49 | a new initial board replaces the board, clears the selection and resets the completion flag; the note mode is kept |
| SudokuEditor.Editor.SelectCell | client/src/hooks/useSudoku.ts:94-101 | the selection becomes (row, col) unless an initial board exists and the cell is FILLED; nothing else changes |
| SudokuEditor.Editor.FillCell | client/src/hooks/useSudoku.ts:103-145 | with no selection or on a FILLED cell the board is unchanged; otherwise only the selected cell becomes the noted or entered cell |
| SudokuEditor.Editor.EraseCell | client/src/hooks/useSudoku.ts:147-166 | with no selection or on a FILLED cell the board is unchanged; otherwise only the selected cell becomes `{0, EMPTY, []}` |
| SudokuEditor.Editor.GetHint | client/src/hooks/useSudoku.ts:172-196 | succeeds iff a non-FILLED cell is selected and a solution exists, then only that cell becomes `{solved value, USER_FILLED, []}`; each failure leaves the board unchanged and names its reason |
| SudokuEditor.Editor.ToggleNoteMode | client/src/hooks/useSudoku.ts:168-170 | the note mode is negated and nothing else changes |
| SudokuEditor.Editor.IsCellError | client/src/hooks/useSudoku.ts:206-208 | a cell is shown as an error iff the error scan flags it |
| SudokuEditor.EnterThenEraseRestores | client/src/hooks/useSudoku.ts:134-165 | entering a value into an empty cell and erasing it gives back the board |
| SudokuEditor.NoteTwiceRestores | client/src/hooks/useSudoku.ts:116-133 | two note entries of one number restore a cell with sorted duplicate-free notes |
| Storage.MemStorage.constructor | server/storage.ts:31-36 | both tables start empty and both counters start at 1 |
| Storage.MemStorage.GetUser | server/storage.ts:38-40 | the user stored under the id, or none iff there is none; a stored user's id is its key |
| Storage.FindByUsername | server/storage.ts:43-45 | the found user has the username, and none is found iff no user has it |
| Storage.UsersInOrder | server/storage.ts:43 | scanning the keys below the counter visits every stored user |
| Storage.MemStorage.GetUserByUsername | server/storage.ts:42-46 | a stored user with exactly that username, or none iff no stored user has it |
| Storage.MemStorage.CreateUser | server/storage.ts:48-53 | the user gets the counter's value as id, above every existing id, and is then retrievable; the counter grows by one |
| Storage.WithId | server/storage.ts:57 | the created game carries the given id and every field of the inserted record: user, difficulty, the three boards, time, completion and both dates |
| Storage.MemStorage.CreateGame | server/storage.ts:55-60 | the game gets the counter's value as id, above every existing id, and is then retrievable; the counter grows by one |
| Storage.MemStorage.GetGame | server/storage.ts:62-64 | the game stored under the id, or none iff there is none |
| Storage.MemStorage.UpdateGame | server/storage.ts:80-87 | an absent id gives none and changes nothing; otherwise the game under that key becomes its merge with the update, and nothing else changes |
| Storage.Merge | server/storage.ts:84 | for each of the ten fields, a value the update gives replaces the stored one and a field the update leaves out keeps its stored value |
| Storage.MergeLaws | server/storage.ts:84 | an empty update is the identity, a full update replaces the record, repeating an update changes nothing, and two updates act as their combination |
| Storage.ValuesFromMembership | server/storage.ts:67 | a record is in the scan iff it is stored under a key in the scanned range |
| Storage.OfUser | server/storage.ts:68 | the filter keeps exactly the games of the user |
| Storage.ToHistory | server/storage.ts:69-76 | a history row carries the game's id, difficulty, time, completion and dates |
| Storage.HistoryOf | server/storage.ts:69-76 | one row per game, in the same order |
| Storage.InsertByStartSorted | server/storage.ts:77 | inserting into a newest-first list keeps it newest first |
| Storage.SortNewestFirst | server/storage.ts:77 | the sort keeps the same rows |
| Storage.SortNewestFirstSorted | server/storage.ts:77 | the sort result is ordered by start time, newest first |
| Storage.RowOfStoredGame | server/storage.ts:66-76 | a row is produced iff it is the row of a game stored for the user |
| Storage.HistoryMembership | server/storage.ts:66-78 | after sorting, the rows are still exactly those of the user's stored games |
| Storage.MemStorage.GetUserGames | server/storage.ts:66-78 | newest first, one row per stored game of the user, and a row is present iff it is the row of such a game |
| Storage.Completed | server/storage.ts:95 | the filter keeps exactly the completed games and never more than its input |
| Storage.ScanCounts | server/storage.ts:90-95 | the scan's count of a user's games, and of the completed ones, equals the number of such stored keys |
| Storage.TotalTimeNonNegative | server/storage.ts:102 | the total of non-negative times is non-negative |
| Storage.StatsTimes | server/storage.ts:98-102 | with non-negative stored times the total time of a user's completed games is non-negative |
| Storage.Stats | server/storage.ts:94-103 | total is the count of games, completed is the number of completed games (the length of the completed filter) and never exceeds the total, the rate is 100 · completed / total (between 0 and 100 percent) and 0 with no games, and the average is the completed games' total time / completed and 0 with none completed |
| Storage.MemStorage.GetUserStats | server/storage.ts:89-111 | the total and completed counts equal the numbers of the user's stored games and completed games, completed ≤ total, the rate is 100 · completed / total and 0 with no games, the average is the user's completed games' total time / completed and 0 with none completed, and it is non-negative when stored times are |
| History.Keep | client/src/pages/History.tsx:63-74 | the chain of early returns keeps a row iff it passes the completion filter and, independently, lies in the difficulty bucket |
| History.BucketsPartition | client/src/pages/History.tsx:69-71 | the buckets 1-3, 4-7 and 8-10 cover every difficulty once |
| History.FilterHistory | client/src/pages/History.tsx:63-74 | the shown rows are exactly the input rows the filter keeps |
| History.FilterIsSubsequence | client/src/pages/History.tsx:63 | the shown rows keep their input order |
| History.FilterAllIsIdentity | client/src/pages/History.tsx:63-74 | with both filters at 'all' the whole history is shown |
| History.FilterComposes | client/src/pages/History.tsx:63-74 | filtering by both equals filtering by completion, then by difficulty |
| History.ReplayPath | client/src/pages/History.tsx:53-60 | the path starts with `/game/` |
| History.ReplayPathReadsBack | client/src/pages/History.tsx:53-60 | the path ends in `?replay=true` iff the game is completed, and the text between `/game/` and the query parses to the game id |

## Left out

- Randomness: `Math.random` in both shuffles becomes a nondeterministic index choice 0 ≤ j ≤ i. Every property holds for every choice. Probabilities are not modelled.
- Sudoku.GenerateSolvedBoard: does not prove that filling the empty grid always succeeds. Its postcondition therefore allows the all-zero grid, the value the source would return after a failed fill.
- Sudoku.GenerateSudoku: inherits the same weaker postcondition.
- Sudoku.FillBoard: a false result is not proved to mean that no completion exists.
- Sudoku.Solve: a false result is not proved to mean that no completion exists.
- Sudoku.SolveSudoku: a missing result is not proved to mean that the board has no solution.
- Uniqueness of a carved puzzle's solution is not checked by the source and is not modelled.
- The ERROR cell status is part of the data model but nothing sets it.
- Integers are unbounded. JavaScript's double-precision numbers behave identically on every value the program produces, such as ids, counters, seconds and difficulties.
- Sudoku.JsRemainder: only its range is stated for negative dividends. formatTime on negative seconds is modelled as written, but no read-back property is claimed for it.
- JSON deep copies are modelled as value semantics. Boards in stored games are opaque strings, and JSON encoding is not modelled.
- Dates are integer timestamps. Locale date formatting is not modelled.
- An absent `notes` field is modelled as the empty list, which is what `|| []` substitutes.
- Storage.Stats: `completionRate` and `averageTime` are kept as numerator/denominator pairs rather than floating-point quotients. History.tsx's `Math.round` of them belongs to rendering and is not modelled.
- The nullable `timeSpent` and `isCompleted` columns carry their defaults, 0 and false.
- Storage.Merge: an update is modelled as a record of optional fields, where a missing field means an absent key. A key explicitly set to `undefined`, which the spread would copy, is not modelled. As in the source, an update may carry an `id` that overrides the record's id field while the table key stays the same.
- Storage.MemStorage.GetUserGames: rows with equal start times stay in ascending id order (the stable sort is modelled), but that tie order is not stated as a property.
- Map iteration follows insertion order. Since keys are handed out in increasing order and an update keeps its key's position, the model scans keys in ascending order from 1 to the counter.
- The async wrappers of the store are plain methods and functions.
- In the editor, the React state setters and render scheduling are not modelled. Each handler applies its change, then runs the error and completion effects at once.
- The `onGameComplete` callback, the save mutation and the query invalidations are calls into the host and the network, and are not modelled.
- SudokuEditor.Editor.SelectCell requires an in-bounds cell. Its only caller, client/src/components/SudokuBoard.tsx:38, passes the row and column of a rendered cell of the 9×9 board. With no initial board the source would store any other selection without indexing the board; that case is not modelled.
- Left out as rendering, HTTP plumbing, timers or network code:
  - the HTTP routes and session handling;
  - the rendering components;
  - authentication;
  - the timer hook and the game page.

=== FILE: decimal.dfy ===
/**
 * The small part of JavaScript's string formatting that the game relies on:
 * `Number.prototype.toString()` on integers, `String.prototype.padStart`, and,
 * as the partner of both, reading a decimal digit string back as a number.
 */
module Decimal {

  predicate IsDigit(ch: char) {
    '0' <= ch <= '9'
  }

  predicate AllDigits(s: string) {
    forall i :: 0 <= i < |s| ==> IsDigit(s[i])
  }

  /** The character of the decimal digit `d`. */
  function DigitChar(d: int): (ch: char)
    requires 0 <= d <= 9
    ensures IsDigit(ch) && ch as int - '0' as int == d
  {
    (48 + d) as char
  }

  function DigitValue(ch: char): (d: int)
    requires IsDigit(ch)
    ensures 0 <= d <= 9 && DigitChar(d) == ch
  {
    ch as int - '0' as int
  }

  /** `n.toString()` for a non-negative integer: no sign, no leading zeros. */
  function NatToString(n: nat): (s: string)
    ensures 1 <= |s| && AllDigits(s)
    ensures |s| == 1 <==> n < 10
    ensures |s| == 2 <==> 10 <= n < 100
    ensures n >= 10 ==> s[0] != '0'
  {
    if n < 10 then [DigitChar(n)] else NatToString(n / 10) + [DigitChar(n % 10)]
  }

  /** `i.toString()` for any integer: a minus sign before the magnitude when negative. */
  function IntToString(i: int): (s: string)
    ensures 1 <= |s|
    ensures i >= 0 ==> AllDigits(s)
    ensures i < 0 ==> s[0] == '-' && AllDigits(s[1..])
    ensures i >= 10 ==> s[0] != '0'
    ensures i <= -10 ==> 2 <= |s| && s[1] != '0'
  {
    if i < 0 then "-" + NatToString(-i) else NatToString(i)
  }

  function Repeat(ch: char, k: nat): (s: string)
    ensures |s| == k && forall i :: 0 <= i < k ==> s[i] == ch
  {
    if k == 0 then [] else [ch] + Repeat(ch, k - 1)
  }

  /** `s.padStart(width, fill)`: `fill` characters in front of `s` up to `width` characters. */
  function PadStart(s: string, width: nat, fill: char): (r: string)
    ensures |r| == if |s| >= width then |s| else width
    ensures r == Repeat(fill, |r| - |s|) + s
  {
    if |s| >= width then s else Repeat(fill, width - |s|) + s
  }

  /** The value of a decimal digit string, most significant digit first. */
  function ParseNat(s: string): nat
    requires AllDigits(s)
  {
    if s == [] then 0 else ParseNat(s[..|s| - 1]) * 10 + DigitValue(s[|s| - 1])
  }

  /** The value of an optionally signed decimal string. */
  function ParseInt(s: string): int
    requires |s| >= 1
    requires s[0] == '-' ==> AllDigits(s[1..])
    requires s[0] != '-' ==> AllDigits(s)
  {
    if s[0] == '-' then 0 - ParseNat(s[1..]) else ParseNat(s) as int
  }

  /** Reading back what `toString` wrote gives the number. */
  lemma {:induction false} ParseNatToString(n: nat)
    ensures ParseNat(NatToString(n)) == n
  {
    if n >= 10 {
      var s := NatToString(n);
      assert s[..|s| - 1] == NatToString(n / 10);
      ParseNatToString(n / 10);
    }
  }

  lemma ParseIntToString(i: int)
    ensures ParseInt(IntToString(i)) == i
  {
    var s := IntToString(i);
    if i < 0 {
      assert s[0] == '-' && s[1..] == NatToString(-i);
      ParseNatToString(-i);
    } else {
      assert s == NatToString(i) && IsDigit(s[0]);
      ParseNatToString(i);
    }
  }

  lemma {:induction false} ParseZeros(k: nat)
    ensures AllDigits(Repeat('0', k)) && ParseNat(Repeat('0', k)) == 0
  {
    if k > 0 {
      assert Repeat('0', k)[..k - 1] == Repeat('0', k - 1);
      ParseZeros(k - 1);
    }
  }

  /** Leading zeros do not change the value of a digit string. */
  lemma {:induction false} ParseIgnoresLeadingZeros(k: nat, s: string)
    requires AllDigits(s)
    ensures AllDigits(Repeat('0', k) + s)
    ensures ParseNat(Repeat('0', k) + s) == ParseNat(s)
    decreases |s|
  {
    var t := Repeat('0', k) + s;
    if s == [] {
      assert t == Repeat('0', k);
      ParseZeros(k);
    } else {
      assert t[..|t| - 1] == Repeat('0', k) + s[..|s| - 1];
      ParseIgnoresLeadingZeros(k, s[..|s| - 1]);
    }
  }

  /** Zero-padding a digit string keeps its value. */
  lemma PadStartKeepsValue(s: string, width: nat)
    requires AllDigits(s)
    ensures AllDigits(PadStart(s, width, '0'))
    ensures ParseNat(PadStart(s, width, '0')) == ParseNat(s)
  {
    ParseIgnoresLeadingZeros(|PadStart(s, width, '0')| - |s|, s);
  }
}

=== FILE: editor.dfy ===
/**
 * The board editor behind the game screen: the board being played, the
 * selected cell, the note-mode switch, the completion flag and the error set
 * derived from the board. Every edit replaces one cell of the board (or
 * nothing) and then the two derived values are brought up to date, as the
 * editor's effects do after each change of the board.
 */
module SudokuEditor {
  import opened Wrappers
  import opened Schema
  import opened SudokuRules
  import opened Sudoku
  import opened Notes
  import opened Sequences

  /** The message `getHint` returns with its success flag. */
  datatype HintMessage = SelectCellFirst | NoHintForCell | HintShown

  /** The board with cell (row, col) replaced by `cell` and every other cell kept. */
  function SetCell(b: Board, row: int, col: int, cell: Cell): (r: Board)
    requires IsBoard(b) && InBounds(row, col)
    ensures IsBoard(r) && r[row][col] == cell
    ensures forall i, j :: InBounds(i, j) && (i != row || j != col) ==> r[i][j] == b[i][j]
  {
    b[row := b[row][col := cell]]
  }

  /** The cell a value-mode entry writes: the value, user-filled (empty for 0), no notes. */
  function EnteredCell(value: int): (c: Cell)
    ensures c.value == value && c.notes == []
    ensures c.status == if value == 0 then Empty else UserFilled
  {
    Cell(value, if value == 0 then Empty else UserFilled, [])
  }

  /** The cell a note-mode entry writes: the same value and status, `value` toggled in the notes. */
  function NotedCell(cell: Cell, value: int): (c: Cell)
    ensures c.value == cell.value && c.status == cell.status
    ensures value !in cell.notes ==> multiset(c.notes) == multiset(cell.notes) + multiset{value}
    ensures value in cell.notes ==> multiset(c.notes) == multiset(cell.notes) - multiset{value}
  {
    cell.(notes := ToggleNote(cell.notes, value))
  }

  /** The error set holds exactly the keys of the cells the error scan flags. */
  ghost predicate ErrorsOf(board: Board, errors: set<string>)
    requires IsBoard(board)
  {
    && (forall k :: k in errors ==> IsCellKey(k))
    && forall r, c :: InBounds(r, c) ==> (CellKey(r, c) in errors <==> Flagged(Values(board), r, c))
  }

  /** The board is full and agrees with the solution, when there is one. */
  ghost predicate Solves(board: Board, solved: Option<Board>)
    requires IsBoard(board) && (solved.Some? ==> IsBoard(solved.value))
  {
    solved.Some? && IsFull(board) && SameValues(board, solved.value)
  }

  /** Whether the selected cell may be edited: one is selected and it is not a given. */
  predicate Editable(board: Board, selected: Option<(int, int)>)
    requires IsBoard(board) && (selected.Some? ==> InBounds(selected.value.0, selected.value.1))
  {
    selected.Some? && board[selected.value.0][selected.value.1].status != Filled
  }

  class Editor {
    var board: Board
    var selected: Option<(int, int)>
    var noteMode: bool
    var completed: bool
    var errors: set<string>
    /** The initial board passed in by the game screen, if any. */
    var initial: Option<Board>
    /** The solution passed in by the game screen, if any. */
    var solved: Option<Board>

    ghost predicate Valid()
      reads this
    {
      && IsBoard(board)
      && (selected.Some? ==> InBounds(selected.value.0, selected.value.1))
      && (initial.Some? ==> IsBoard(initial.value))
      && (solved.Some? ==> IsBoard(solved.value))
      && ErrorsOf(board, errors)
      && (Solves(board, solved) ==> completed)
    }

    /**
     * Mounting the editor: the initial board (or an empty one), nothing
     * selected, value mode; then the errors and the completion flag are
     * computed for that board.
     */
    constructor (initialBoard: Option<Board>, solvedBoard: Option<Board>)
      requires initialBoard.Some? ==> IsBoard(initialBoard.value)
      requires solvedBoard.Some? ==> IsBoard(solvedBoard.value)
      ensures Valid()
      ensures initialBoard.Some? ==> board == initialBoard.value
      ensures initialBoard.None? ==> forall r, c :: InBounds(r, c) ==> board[r][c] == EmptyCell()
      ensures selected == None && !noteMode
      ensures initial == initialBoard && solved == solvedBoard
      ensures completed == Solves(board, solved)
    {
      var b;
      if initialBoard.Some? {
        b := initialBoard.value;
      } else {
        b := CreateEmptyBoard();
      }
      board := b;
      selected := None;
      noteMode := false;
      completed := false;
      errors := {};
      initial := initialBoard;
      solved := solvedBoard;
      new;
      Settle();
    }

    /**
     * The effects that follow a change of the board: the error set is
     * recomputed, and the completion flag is set when the board is full and
     * agrees with the solution. Nothing clears the flag here.
     */
    method Settle()
      requires IsBoard(board) && (solved.Some? ==> IsBoard(solved.value))
      modifies this
      ensures board == old(board) && selected == old(selected) && noteMode == old(noteMode)
      ensures initial == old(initial) && solved == old(solved)
      ensures ErrorsOf(board, errors)
      ensures completed == (old(completed) || Solves(board, solved))
    {
      errors := GetBoardErrors(board);
      if solved.Some? {
        var full := IsBoardComplete(board);
        var correct := IsBoardCorrect(board, solved.value);
        if full && correct {
          completed := true;
        }
      }
    }

    /**
     * A new game handed to the editor: its initial board replaces the board,
     * the selection is dropped and the completion flag is cleared, before
     * the effects run again. The note mode is kept.
     */
    method NewGame(initialBoard: Board, solvedBoard: Option<Board>)
      requires Valid() && IsBoard(initialBoard)
      requires solvedBoard.Some? ==> IsBoard(solvedBoard.value)
      modifies this
      ensures Valid()
      ensures board == initialBoard && selected == None && noteMode == old(noteMode)
      ensures initial == Some(initialBoard) && solved == solvedBoard
      ensures completed == Solves(board, solved)
    {
      initial := Some(initialBoard);
      solved := solvedBoard;
      board := initialBoard;
      selected := None;
      completed := false;
      Settle();
    }

    /** Selecting a cell; a given cell of an initial board cannot be selected. */
    method SelectCell(row: int, col: int)
      requires Valid() && InBounds(row, col)
      modifies this
      ensures Valid()
      ensures selected == if initial.Some? && board[row][col].status == Filled then old(selected) else Some((row, col))
      ensures board == old(board) && noteMode == old(noteMode) && completed == old(completed)
      ensures errors == old(errors) && initial == old(initial) && solved == old(solved)
    {
      if initial.Some? && board[row][col].status == Filled {
        return;
      }
      selected := Some((row, col));
    }

    /**
     * Entering `value` into the selected cell. Without a selection, or on a
     * given cell, nothing changes. In note mode `value` is toggled in the
     * cell's notes; otherwise the cell becomes the entered value with no notes.
     */
    method FillCell(value: int)
      requires Valid()
      modifies this
      ensures Valid()
      ensures selected == old(selected) && noteMode == old(noteMode)
      ensures initial == old(initial) && solved == old(solved)
      ensures !Editable(old(board), selected) ==> board == old(board)
      ensures Editable(old(board), selected) ==>
        var (row, col) := selected.value;
        board == SetCell(old(board), row, col,
                         if noteMode then NotedCell(old(board)[row][col], value) else EnteredCell(value))
      ensures completed == (old(completed) || Solves(board, solved))
    {
      if selected.None? {
        return;
      }
      var (row, col) := selected.value;
      if board[row][col].status == Filled {
        return;
      }
      var cell := if noteMode then NotedCell(board[row][col], value) else EnteredCell(value);
      board := SetCell(board, row, col, cell);
      Settle();
    }

    /** Clearing the selected cell to an empty cell; nothing changes without a selection or on a given. */
    method EraseCell()
      requires Valid()
      modifies this
      ensures Valid()
      ensures selected == old(selected) && noteMode == old(noteMode)
      ensures initial == old(initial) && solved == old(solved)
      ensures !Editable(old(board), selected) ==> board == old(board)
      ensures Editable(old(board), selected) ==>
        board == SetCell(old(board), selected.value.0, selected.value.1, EmptyCell())
      ensures completed == (old(completed) || Solves(board, solved))
    {
      if selected.None? {
        return;
      }
      var (row, col) := selected.value;
      if board[row][col].status == Filled {
        return;
      }
      board := SetCell(board, row, col, EmptyCell());
      Settle();
    }

    /**
     * Revealing the solution's value in the selected cell. It fails, changing
     * nothing, without a selection or a solution, or on a given cell.
     */
    method GetHint() returns (success: bool, message: HintMessage)
      requires Valid()
      modifies this
      ensures Valid()
      ensures selected == old(selected) && noteMode == old(noteMode)
      ensures initial == old(initial) && solved == old(solved)
      ensures success <==> solved.Some? && Editable(old(board), selected)
      ensures message == if selected.None? || solved.None? then SelectCellFirst
                         else if success then HintShown else NoHintForCell
      ensures !success ==> board == old(board)
      ensures success ==>
        var (row, col) := selected.value;
        board == SetCell(old(board), row, col, Cell(solved.value[row][col].value, UserFilled, []))
      ensures completed == (old(completed) || Solves(board, solved))
    {
      if selected.None? || solved.None? {
        return false, SelectCellFirst;
      }
      var (row, col) := selected.value;
      if board[row][col].status == Filled {
        return false, NoHintForCell;
      }
      board := SetCell(board, row, col, Cell(solved.value[row][col].value, UserFilled, []));
      Settle();
      return true, HintShown;
    }

    /** Switching between value mode and note mode. */
    method ToggleNoteMode()
      requires Valid()
      modifies this
      ensures Valid()
      ensures noteMode == !old(noteMode)
      ensures board == old(board) && selected == old(selected) && completed == old(completed)
      ensures errors == old(errors) && initial == old(initial) && solved == old(solved)
    {
      noteMode := !noteMode;
    }

    /** Whether cell (row, col) is shown as an error: exactly when the error scan flags it. */
    function IsCellError(row: int, col: int): (e: bool)
      reads this
      requires Valid() && InBounds(row, col)
      ensures e <==> Flagged(Values(board), row, col)
    {
      HasCellError(row, col, board, errors)
    }
  }

  /**
   * Entering a value and then erasing it restores the board, provided the
   * cell was empty with no notes: the round trip of an edit.
   */
  lemma EnterThenEraseRestores(b: Board, row: int, col: int, value: int)
    requires IsBoard(b) && InBounds(row, col) && b[row][col] == EmptyCell()
    ensures SetCell(SetCell(b, row, col, EnteredCell(value)), row, col, EmptyCell()) == b
  {
    var r := SetCell(SetCell(b, row, col, EnteredCell(value)), row, col, EmptyCell());
    forall i | 0 <= i < Size
      ensures r[i] == b[i]
    {
      forall j | 0 <= j < Size
        ensures r[i][j] == b[i][j]
      {
      }
    }
  }

  /** Two note-mode entries of the same number restore a sorted duplicate-free cell. */
  lemma NoteTwiceRestores(cell: Cell, value: int)
    requires Sorted(cell.notes) && Distinct(cell.notes)
    ensures NotedCell(NotedCell(cell, value), value) == cell
  {
    ToggleNoteTwice(cell.notes, value);
  }
}

=== FILE: history.dfy ===
/**
 * The history page's two rules: which rows of a user's game history are
 * shown under the completion and difficulty filters, and which path the
 * replay button opens.
 */
module History {
  import opened Decimal
  import opened Schema

  /** The completion filter: 'all', 'completed', 'incomplete'. */
  datatype CompletionFilter = AllGames | CompletedOnly | IncompleteOnly

  /** The difficulty filter: 'all', '1-3', '4-7', '8-10'. */
  datatype DifficultyFilter = AnyDifficulty | Easy | Medium | Hard

  /** What the completion filter asks of a row, on its own. */
  predicate PassesCompletion(isCompleted: bool, completion: CompletionFilter) {
    match completion
    case AllGames => true
    case CompletedOnly => isCompleted
    case IncompleteOnly => !isCompleted
  }

  /** The inclusive difficulty range of each bucket. */
  predicate InBucket(d: int, difficulty: DifficultyFilter) {
    match difficulty
    case AnyDifficulty => true
    case Easy => 1 <= d <= 3
    case Medium => 4 <= d <= 7
    case Hard => 8 <= d <= 10
  }

  /** The filter callback: each test that fails drops the row; a row passing all of them is kept. */
  predicate Keep(game: GameHistory, completion: CompletionFilter, difficulty: DifficultyFilter)
    ensures Keep(game, completion, difficulty) <==>
      PassesCompletion(game.isCompleted, completion) && InBucket(game.difficulty, difficulty)
  {
    if completion == CompletedOnly && !game.isCompleted then false
    else if completion == IncompleteOnly && game.isCompleted then false
    else if difficulty == Easy && (game.difficulty < 1 || game.difficulty > 3) then false
    else if difficulty == Medium && (game.difficulty < 4 || game.difficulty > 7) then false
    else if difficulty == Hard && (game.difficulty < 8 || game.difficulty > 10) then false
    else true
  }

  /** The buckets of difficulties 1..10 do not overlap and every difficulty has one. */
  lemma BucketsPartition(d: Difficulty)
    ensures InBucket(d, Easy) || InBucket(d, Medium) || InBucket(d, Hard)
    ensures !(InBucket(d, Easy) && InBucket(d, Medium))
    ensures !(InBucket(d, Medium) && InBucket(d, Hard))
    ensures !(InBucket(d, Easy) && InBucket(d, Hard))
  {
  }

  /** The shown history: the rows the filter keeps, in their original order. */
  function FilterHistory(s: seq<GameHistory>, completion: CompletionFilter, difficulty: DifficultyFilter)
    : (r: seq<GameHistory>)
    ensures |r| <= |s|
    ensures forall g :: g in r <==> g in s && Keep(g, completion, difficulty)
  {
    if s == [] then []
    else
      (if Keep(s[0], completion, difficulty) then [s[0]] else [])
      + FilterHistory(s[1..], completion, difficulty)
  }

  /** `a` is `b` with some rows left out, the rest in the same order. */
  predicate SubsequenceOf(a: seq<GameHistory>, b: seq<GameHistory>) {
    if a == [] then true
    else if b == [] then false
    else if a[0] == b[0] then SubsequenceOf(a[1..], b[1..])
    else SubsequenceOf(a, b[1..])
  }

  lemma {:induction false} SubsequenceOfTail(a: seq<GameHistory>, b: seq<GameHistory>)
    requires b != [] && SubsequenceOf(a, b[1..])
    ensures SubsequenceOf(a, b)
    decreases |a| + |b|
  {
    if a != [] && a[0] == b[0] {
      if b[1..] != [] {
        SubsequenceDropHead(a, b[1..]);
      }
    }
  }

  lemma {:induction false} SubsequenceDropHead(a: seq<GameHistory>, b: seq<GameHistory>)
    requires a != [] && SubsequenceOf(a, b)
    ensures SubsequenceOf(a[1..], b)
    decreases |a| + |b|
  {
    if a[0] == b[0] {
      if a[1..] != [] {
        SubsequenceOfTail(a[1..], b);
      }
    } else {
      SubsequenceDropHead(a, b[1..]);
      SubsequenceOfTail(a[1..], b);
    }
  }

  /** The filter keeps the order of the rows it keeps. */
  lemma {:induction false} FilterIsSubsequence(s: seq<GameHistory>, completion: CompletionFilter, difficulty: DifficultyFilter)
    ensures SubsequenceOf(FilterHistory(s, completion, difficulty), s)
  {
    if s != [] {
      var rest := FilterHistory(s[1..], completion, difficulty);
      FilterIsSubsequence(s[1..], completion, difficulty);
      if Keep(s[0], completion, difficulty) {
        assert FilterHistory(s, completion, difficulty) == [s[0]] + rest;
        assert ([s[0]] + rest)[1..] == rest;
      } else {
        assert FilterHistory(s, completion, difficulty) == rest;
        SubsequenceOfTail(rest, s);
      }
    }
  }

  /** With both filters at 'all' the whole history is shown. */
  lemma {:induction false} FilterAllIsIdentity(s: seq<GameHistory>)
    ensures FilterHistory(s, AllGames, AnyDifficulty) == s
  {
    if s != [] {
      FilterAllIsIdentity(s[1..]);
      assert s == [s[0]] + s[1..];
    }
  }

  /** Filtering by both is filtering by completion and then by difficulty. */
  lemma {:induction false} FilterComposes(s: seq<GameHistory>, completion: CompletionFilter, difficulty: DifficultyFilter)
    ensures FilterHistory(s, completion, difficulty) ==
      FilterHistory(FilterHistory(s, completion, AnyDifficulty), AllGames, difficulty)
  {
    if s != [] {
      FilterComposes(s[1..], completion, difficulty);
      var mid := FilterHistory(s, completion, AnyDifficulty);
      var midRest := FilterHistory(s[1..], completion, AnyDifficulty);
      if Keep(s[0], completion, AnyDifficulty) {
        assert mid == [s[0]] + midRest;
        assert mid[0] == s[0] && mid[1..] == midRest;
      } else {
        assert mid == midRest;
      }
    }
  }

  /** The path the replay button opens: with `?replay=true` exactly for a completed game. */
  function ReplayPath(gameId: int, isCompleted: bool): (p: string)
    ensures |p| > 6 && p[..6] == "/game/"
  {
    if isCompleted then "/game/" + IntToString(gameId) + "?replay=true"
    else "/game/" + IntToString(gameId)
  }

  const ReplaySuffix: string := "?replay=true"

  /**
   * The path reads back: it ends in the replay query iff the game is
   * completed, and what lies between `/game/` and the query is the game id.
   */
  lemma ReplayPathReadsBack(gameId: int, isCompleted: bool)
    ensures var p := ReplayPath(gameId, isCompleted);
      && (|p| >= 6 + |ReplaySuffix| && p[|p| - |ReplaySuffix|..] == ReplaySuffix <==> isCompleted)
      && var idText := if isCompleted then p[6..|p| - |ReplaySuffix|] else p[6..];
         |idText| >= 1
         && (idText[0] == '-' ==> AllDigits(idText[1..]))
         && (idText[0] != '-' ==> AllDigits(idText))
         && ParseInt(idText) == gameId
  {
    var p := ReplayPath(gameId, isCompleted);
    var text := IntToString(gameId);
    ParseIntToString(gameId);
    if isCompleted {
      assert p == "/game/" + text + ReplaySuffix;
      assert p[6..|p| - |ReplaySuffix|] == text;
      assert p[|p| - |ReplaySuffix|..] == ReplaySuffix;
    } else {
      assert p == "/game/" + text;
      assert p[6..] == text;
      if |p| >= 6 + |ReplaySuffix| {
        var last := p[|p| - 1];
        assert last == text[|text| - 1];
        assert IsDigit(last) by {
          if text[0] == '-' {
            assert text[|text| - 1] == text[1..][|text| - 2];
          }
        }
        assert p[|p| - |ReplaySuffix|..][|ReplaySuffix| - 1] == last;
      }
    }
  }
}

=== FILE: notes.dfy ===
/**
 * The pencil-mark list of a cell and the one edit made to it: toggling a
 * number. Adding pushes the number and sorts the list with
 * `Array.prototype.sort()` without a comparator, which orders numbers by
 * their decimal text; removing splices out the first occurrence.
 */
module Notes {
  import opened Decimal
  import opened Sequences

  /** JavaScript's string comparison `a <= b`: code unit by code unit, a proper prefix first. */
  predicate StrLe(a: string, b: string) {
    |a| == 0 || (|b| > 0 && (a[0] < b[0] || (a[0] == b[0] && StrLe(a[1..], b[1..]))))
  }

  lemma {:induction false} StrLeTotal(a: string, b: string)
    ensures StrLe(a, b) || StrLe(b, a)
  {
    if |a| > 0 && |b| > 0 && a[0] == b[0] {
      StrLeTotal(a[1..], b[1..]);
    }
  }

  lemma {:induction false} StrLeAntisymmetric(a: string, b: string)
    requires StrLe(a, b) && StrLe(b, a)
    ensures a == b
  {
    if |a| > 0 {
      StrLeAntisymmetric(a[1..], b[1..]);
      assert a == [a[0]] + a[1..] && b == [b[0]] + b[1..];
    }
  }

  lemma {:induction false} StrLeTransitive(a: string, b: string, c: string)
    requires StrLe(a, b) && StrLe(b, c)
    ensures StrLe(a, c)
  {
    if |a| > 0 && a[0] == b[0] && b[0] == c[0] {
      StrLeTransitive(a[1..], b[1..], c[1..]);
    }
  }

  /** The order of the default sort: by decimal text, so 10 comes before 9. */
  predicate NoteLe(x: int, y: int) {
    StrLe(IntToString(x), IntToString(y))
  }

  lemma NoteLeTotal(x: int, y: int)
    ensures NoteLe(x, y) || NoteLe(y, x)
  {
    StrLeTotal(IntToString(x), IntToString(y));
  }

  /** Distinct numbers have distinct texts, so the default sort is a total order on numbers. */
  lemma NoteLeAntisymmetric(x: int, y: int)
    requires NoteLe(x, y) && NoteLe(y, x)
    ensures x == y
  {
    StrLeAntisymmetric(IntToString(x), IntToString(y));
    ParseIntToString(x);
    ParseIntToString(y);
  }

  lemma NoteLeTransitive(x: int, y: int, z: int)
    requires NoteLe(x, y) && NoteLe(y, z)
    ensures NoteLe(x, z)
  {
    StrLeTransitive(IntToString(x), IntToString(y), IntToString(z));
  }

  /** On the digits 0..9 the text order is the numeric order. */
  lemma NoteLeOnDigits(x: int, y: int)
    requires 0 <= x <= 9 && 0 <= y <= 9
    ensures NoteLe(x, y) <==> x <= y
  {
    var a, b := IntToString(x), IntToString(y);
    assert a == [DigitChar(x)] && b == [DigitChar(y)];
    assert a[1..] == [] && b[1..] == [];
    assert StrLe(a, b) <==> a[0] < b[0] || a[0] == b[0];
  }

  /** Past one digit the orders differ: the default sort puts 10 before 2. */
  lemma NoteLeNotNumeric()
    ensures NoteLe(10, 2) && !NoteLe(2, 10)
  {
    assert IntToString(10) == "10" && IntToString(2) == "2";
  }

  predicate Sorted(s: seq<int>) {
    forall i, j :: 0 <= i < j < |s| ==> NoteLe(s[i], s[j])
  }

  /** `x` placed before the first element it sorts before. */
  function Insert(x: int, s: seq<int>): (r: seq<int>)
    ensures multiset(r) == multiset(s) + multiset{x}
  {
    if s == [] then [x]
    else if NoteLe(x, s[0]) then [x] + s
    else
      assert s == [s[0]] + s[1..];
      [s[0]] + Insert(x, s[1..])
  }

  lemma {:induction false} InsertSorted(x: int, s: seq<int>)
    requires Sorted(s)
    ensures Sorted(Insert(x, s))
  {
    if s != [] && !NoteLe(x, s[0]) {
      NoteLeTotal(x, s[0]);
      InsertSorted(x, s[1..]);
      var r := Insert(x, s[1..]);
      forall k | 0 <= k < |r|
        ensures NoteLe(s[0], r[k])
      {
        assert r[k] in multiset(r);
        if r[k] != x {
          assert r[k] in multiset(s[1..]);
          var m :| 0 <= m < |s[1..]| && s[1..][m] == r[k];
          assert s[m + 1] == r[k];
        }
      }
      ConsSorted(s[0], r);
    } else if s != [] {
      forall k | 0 <= k < |s|
        ensures NoteLe(x, s[k])
      {
        if k > 0 {
          NoteLeTransitive(x, s[0], s[k]);
        }
      }
      ConsSorted(x, s);
    }
  }

  /** A number that sorts before every element of a sorted list can go in front of it. */
  lemma ConsSorted(h: int, r: seq<int>)
    requires Sorted(r) && forall k :: 0 <= k < |r| ==> NoteLe(h, r[k])
    ensures Sorted([h] + r)
  {
    var t := [h] + r;
    forall a, b | 0 <= a < b < |t|
      ensures NoteLe(t[a], t[b])
    {
      assert t[b] == r[b - 1];
      if a > 0 {
        assert t[a] == r[a - 1];
      }
    }
  }

  /** The result of `sort()`: the same numbers in the default sort order. */
  function SortNotes(s: seq<int>): (r: seq<int>)
    ensures multiset(r) == multiset(s)
  {
    if s == [] then []
    else
      assert s == s[..|s| - 1] + [s[|s| - 1]];
      Insert(s[|s| - 1], SortNotes(s[..|s| - 1]))
  }

  lemma {:induction false} SortNotesSorted(s: seq<int>)
    ensures Sorted(SortNotes(s))
  {
    if s != [] {
      SortNotesSorted(s[..|s| - 1]);
      InsertSorted(s[|s| - 1], SortNotes(s[..|s| - 1]));
    }
  }

  /** Two sorted lists of the same numbers are the same list: the sort result is unique. */
  lemma {:induction false} SortedUnique(a: seq<int>, b: seq<int>)
    requires Sorted(a) && Sorted(b) && multiset(a) == multiset(b)
    ensures a == b
  {
    assert |a| == |multiset(a)| == |multiset(b)| == |b|;
    if a != [] {
      SortedSameHead(a, b);
      assert a == [a[0]] + a[1..] && b == [b[0]] + b[1..];
      assert multiset(a) == multiset{a[0]} + multiset(a[1..]);
      assert multiset(b) == multiset{b[0]} + multiset(b[1..]);
      assert multiset(a[1..]) == multiset(a) - multiset{a[0]};
      assert multiset(b[1..]) == multiset(b) - multiset{b[0]};
      SortedUnique(a[1..], b[1..]);
    }
  }

  lemma SortedSameHead(a: seq<int>, b: seq<int>)
    requires Sorted(a) && Sorted(b) && multiset(a) == multiset(b) && a != [] && b != []
    ensures a[0] == b[0]
  {
    assert a[0] in multiset(b);
    var j :| 0 <= j < |b| && b[j] == a[0];
    assert b[0] in multiset(a);
    var i :| 0 <= i < |a| && a[i] == b[0];
    if i > 0 && j > 0 {
      NoteLeAntisymmetric(a[0], b[0]);
    }
  }

  /** `indexOf`: the first position of `x`, or -1. */
  function IndexOf(s: seq<int>, x: int): (i: int)
    ensures -1 <= i < |s|
    ensures i == -1 <==> x !in s
    ensures i >= 0 ==> s[i] == x && x !in s[..i]
  {
    if s == [] then -1
    else if s[0] == x then 0
    else
      var k := IndexOf(s[1..], x);
      assert s[1..][..k + 1] == s[1..k + 2];
      if k == -1 then -1 else k + 1
  }

  /** `splice(i, 1)`: the list without its element at `i`. */
  function RemoveAt(s: seq<int>, i: int): (r: seq<int>)
    requires 0 <= i < |s|
    ensures |r| == |s| - 1
    ensures forall k :: 0 <= k < |r| ==> r[k] == s[if k < i then k else k + 1]
    ensures multiset(r) == multiset(s) - multiset{s[i]}
  {
    assert s == s[..i] + [s[i]] + s[i + 1..];
    s[..i] + s[i + 1..]
  }

  lemma RemoveAtSorted(s: seq<int>, i: int)
    requires 0 <= i < |s| && Sorted(s)
    ensures Sorted(RemoveAt(s, i))
  {
    var r := RemoveAt(s, i);
    forall a, b | 0 <= a < b < |r|
      ensures NoteLe(r[a], r[b])
    {
      var a', b' := if a < i then a else a + 1, if b < i then b else b + 1;
      assert r[a] == s[a'] && r[b] == s[b'];
    }
  }

  /** A note-mode entry of `value`: added and sorted when absent, its first copy removed when present. */
  function ToggleNote(notes: seq<int>, value: int): (r: seq<int>)
    ensures value !in notes ==> multiset(r) == multiset(notes) + multiset{value}
    ensures value in notes ==> multiset(r) == multiset(notes) - multiset{value}
  {
    var i := IndexOf(notes, value);
    if i == -1 then SortNotes(notes + [value]) else RemoveAt(notes, i)
  }

  /** How many copies of each number the notes hold after a toggle of `value`. */
  lemma ToggleNoteCount(notes: seq<int>, value: int, y: int)
    ensures multiset(ToggleNote(notes, value))[y] ==
      if y != value then multiset(notes)[y]
      else if value in notes then multiset(notes)[value] - 1
      else 1
  {
    if value !in notes {
      assert multiset(notes)[value] == 0;
    }
  }

  /**
   * After a toggle the value is present iff it was absent (on a list without
   * duplicates), and every other number keeps its presence.
   */
  lemma ToggleNoteMembership(notes: seq<int>, value: int)
    ensures Distinct(notes) ==> (value in ToggleNote(notes, value) <==> value !in notes)
    ensures forall y :: y != value ==> (y in ToggleNote(notes, value) <==> y in notes)
  {
    forall y | y != value
      ensures y in ToggleNote(notes, value) <==> y in notes
    {
      ToggleNoteCount(notes, value, y);
    }
    ToggleNoteCount(notes, value, value);
    if Distinct(notes) && value in notes {
      DistinctCounts(notes, value);
      assert multiset(notes)[value] == 1;
    }
  }

  /** Toggling keeps a sorted list sorted and a duplicate-free list duplicate-free; adding always sorts. */
  lemma ToggleNoteInvariants(notes: seq<int>, value: int)
    ensures value !in notes || Sorted(notes) ==> Sorted(ToggleNote(notes, value))
    ensures Distinct(notes) ==> Distinct(ToggleNote(notes, value))
  {
    var i := IndexOf(notes, value);
    if i == -1 {
      SortNotesSorted(notes + [value]);
    } else if Sorted(notes) {
      RemoveAtSorted(notes, i);
    }
    if Distinct(notes) {
      forall x
        ensures multiset(ToggleNote(notes, value))[x] <= 1
      {
        ToggleNoteCount(notes, value, x);
        DistinctCounts(notes, x);
      }
      CountsDistinct(ToggleNote(notes, value));
    }
  }

  /** Toggling the same number twice gives back a sorted duplicate-free list. */
  lemma ToggleNoteTwice(notes: seq<int>, value: int)
    requires Sorted(notes) && Distinct(notes)
    ensures ToggleNote(ToggleNote(notes, value), value) == notes
  {
    var once := ToggleNote(notes, value);
    ToggleNoteInvariants(notes, value);
    ToggleNoteInvariants(once, value);
    ToggleTwiceSameNumbers(notes, value);
    SortedUnique(ToggleNote(once, value), notes);
  }

  lemma ToggleTwiceSameNumbers(notes: seq<int>, value: int)
    requires Distinct(notes)
    ensures multiset(ToggleNote(ToggleNote(notes, value), value)) == multiset(notes)
  {
    var once := ToggleNote(notes, value);
    ToggleNoteMembership(notes, value);
    DistinctCounts(notes, value);
    if value in notes {
      assert value !in once;
      assert multiset(notes)[value] == 1;
    } else {
      assert value in once;
    }
  }
}

=== FILE: schema.dfy ===
/**
 * The shared record types: a Sudoku cell and board, the difficulty range, the
 * stored user and game records and the per-game history entry.
 */
module Schema {
  import opened Wrappers

  /**
   * Cell status. `Filled` marks a given of the dealt puzzle, `UserFilled` a value
   * the player entered. `Error` exists in the schema but nothing produces it.
   */
  datatype Status = Empty | Filled | UserFilled | Error

  /** A board cell; `value == 0` means empty. An absent `notes` list is `[]`. */
  datatype Cell = Cell(value: int, status: Status, notes: seq<int>)

  /** A board: rows of cells, row-major. */
  type Board = seq<seq<Cell>>

  const Size := 9

  predicate InBounds(row: int, col: int) {
    0 <= row < Size && 0 <= col < Size
  }

  /** Nine rows of nine entries: the shape of a board of cells and of a grid of numbers. */
  predicate IsBoard<T>(b: seq<seq<T>>) {
    |b| == Size && forall r :: 0 <= r < Size ==> |b[r]| == Size
  }

  function EmptyCell(): Cell {
    Cell(0, Empty, [])
  }

  /** A difficulty level; the schema lists exactly 1 to 10. */
  type Difficulty = d: int | 1 <= d <= 10 witness 1

  datatype InsertUser = InsertUser(username: string)

  datatype User = User(id: int, username: string)

  /**
   * A stored game. Boards are kept as opaque serialized strings; timestamps are
   * integers. The nullable columns `timeSpent` and `isCompleted` carry their
   * defaults, 0 and false.
   */
  datatype Game = Game(
    id: int,
    userId: int,
    difficulty: int,
    initialBoard: string,
    currentBoard: string,
    solvedBoard: string,
    timeSpent: int,
    isCompleted: bool,
    startedAt: int,
    completedAt: Option<int>)

  /** A game record before it has an id. */
  datatype InsertGame = InsertGame(
    userId: int,
    difficulty: int,
    initialBoard: string,
    currentBoard: string,
    solvedBoard: string,
    timeSpent: int,
    isCompleted: bool,
    startedAt: int,
    completedAt: Option<int>)

  /** A partial game record: `None` leaves a field out. */
  datatype GameUpdate = GameUpdate(
    id: Option<int>,
    userId: Option<int>,
    difficulty: Option<int>,
    initialBoard: Option<string>,
    currentBoard: Option<string>,
    solvedBoard: Option<string>,
    timeSpent: Option<int>,
    isCompleted: Option<bool>,
    startedAt: Option<int>,
    completedAt: Option<Option<int>>)

  /** One row of a user's game history. */
  datatype GameHistory = GameHistory(
    id: int,
    difficulty: int,
    timeSpent: int,
    isCompleted: bool,
    startedAt: int,
    completedAt: Option<int>)

  /** A quotient kept as numerator over a positive denominator instead of a floating-point number. */
  datatype Ratio = Ratio(num: int, den: int)

  /** A user's counters; the rate is a percentage and the average is in seconds. */
  datatype UserStats = UserStats(totalGames: nat, completedGames: nat, completionRate: Ratio, averageTime: Ratio)
}

=== FILE: sequences.dfy ===
/** Sequences without repeated elements, stated by position and by count. */
module Sequences {
  /** No element occurs at two positions. */
  ghost predicate Distinct<T>(s: seq<T>) {
    forall i, j :: 0 <= i < j < |s| ==> s[i] != s[j]
  }

  /** Without repetitions every element occurs at most once. */
  lemma {:induction false} DistinctCounts<T>(s: seq<T>, x: T)
    requires Distinct(s)
    ensures multiset(s)[x] <= 1
  {
    if s != [] {
      assert s == [s[0]] + s[1..];
      DistinctCounts(s[1..], x);
      if x == s[0] {
        assert x !in s[1..];
      }
    }
  }

  /** A sequence in which every element occurs at most once has no repetitions. */
  lemma CountsDistinct<T>(s: seq<T>)
    requires forall x :: multiset(s)[x] <= 1
    ensures Distinct(s)
  {
    forall i, j | 0 <= i < j < |s|
      ensures s[i] != s[j]
    {
      RepeatCounts(s, i, j);
    }
  }

  /** An element found at two positions occurs at least twice. */
  lemma RepeatCounts<T>(s: seq<T>, i: int, j: int)
    requires 0 <= i < j < |s|
    ensures s[i] == s[j] ==> multiset(s)[s[i]] >= 2
  {
    assert s == s[..j] + s[j..];
    assert s[i] in multiset(s[..j]) && s[j] in multiset(s[j..]);
  }

  /** A permutation of a sequence without repetitions has none. */
  lemma DistinctPermutation<T>(s: seq<T>, t: seq<T>)
    requires multiset(s) == multiset(t) && Distinct(t)
    ensures Distinct(s)
  {
    forall x
      ensures multiset(s)[x] <= 1
    {
      DistinctCounts(t, x);
    }
    CountsDistinct(s);
  }
}

=== FILE: storage.dfy ===
/**
 * The in-memory store: a table of users and a table of games, each keyed by
 * an id taken from its own counter, which starts at 1 and grows by one per
 * record created. Queries scan a table's records in insertion order; since
 * ids are handed out in increasing order and an update keeps its key, that
 * is ascending id order.
 */
module Storage {
  import opened Wrappers
  import opened Schema

  /** The records of `m` under the keys lo, lo + 1, ..., hi - 1, in that order. */
  function ValuesFrom<V>(m: map<int, V>, lo: int, hi: int): seq<V>
    decreases hi - lo
  {
    if lo >= hi then [] else (if lo in m then [m[lo]] else []) + ValuesFrom(m, lo + 1, hi)
  }

  lemma {:induction false} ValuesFromMembership<V>(m: map<int, V>, lo: int, hi: int, x: V)
    ensures x in ValuesFrom(m, lo, hi) <==> exists k :: lo <= k < hi && k in m && m[k] == x
    decreases hi - lo
  {
    if lo < hi {
      ValuesFromMembership(m, lo + 1, hi, x);
      if exists k :: lo <= k < hi && k in m && m[k] == x {
        var k :| lo <= k < hi && k in m && m[k] == x;
        if k != lo {
          assert lo + 1 <= k < hi && k in m && m[k] == x;
        }
      }
    }
  }

  /** `find`: the first user with exactly this username, if any. */
  function FindByUsername(us: seq<User>, username: string): (r: Option<User>)
    ensures r.Some? ==> r.value in us && r.value.username == username
    ensures r.None? <==> forall u :: u in us ==> u.username != username
  {
    if us == [] then None
    else if us[0].username == username then Some(us[0])
    else FindByUsername(us[1..], username)
  }

  /** `filter` by owner. */
  function OfUser(s: seq<Game>, userId: int): (r: seq<Game>)
    ensures forall g :: g in r <==> g in s && g.userId == userId
  {
    if s == [] then []
    else (if s[0].userId == userId then [s[0]] else []) + OfUser(s[1..], userId)
  }

  /** `filter` by completion. */
  function Completed(s: seq<Game>): (r: seq<Game>)
    ensures forall g :: g in r <==> g in s && g.isCompleted
    ensures |r| <= |s|
  {
    if s == [] then []
    else (if s[0].isCompleted then [s[0]] else []) + Completed(s[1..])
  }

  /** The `reduce` summing the time spent. */
  function TotalTime(s: seq<Game>): int {
    if s == [] then 0 else s[0].timeSpent + TotalTime(s[1..])
  }

  lemma {:induction false} TotalTimeNonNegative(s: seq<Game>)
    requires forall g :: g in s ==> g.timeSpent >= 0
    ensures TotalTime(s) >= 0
  {
    if s != [] {
      TotalTimeNonNegative(s[1..]);
    }
  }

  lemma {:induction false} OfUserAppend(a: seq<Game>, b: seq<Game>, userId: int)
    ensures OfUser(a + b, userId) == OfUser(a, userId) + OfUser(b, userId)
  {
    if a != [] {
      assert (a + b)[0] == a[0] && (a + b)[1..] == a[1..] + b;
      OfUserAppend(a[1..], b, userId);
    } else {
      assert a + b == b;
    }
  }

  lemma {:induction false} CompletedAppend(a: seq<Game>, b: seq<Game>)
    ensures Completed(a + b) == Completed(a) + Completed(b)
  {
    if a != [] {
      assert (a + b)[0] == a[0] && (a + b)[1..] == a[1..] + b;
      CompletedAppend(a[1..], b);
    } else {
      assert a + b == b;
    }
  }

  /** The keys in [lo, hi) of the games owned by `userId`, or, with `onlyCompleted`, of the completed ones. */
  ghost function GameKeys(m: map<int, Game>, lo: int, hi: int, userId: int, onlyCompleted: bool): set<int> {
    set k | k in m && lo <= k < hi && m[k].userId == userId && (onlyCompleted ==> m[k].isCompleted)
  }

  /** Scanning the keys in [lo, hi): one record per owned game, one per owned completed game. */
  lemma ScanCounts(m: map<int, Game>, lo: int, hi: int, userId: int)
    ensures |OfUser(ValuesFrom(m, lo, hi), userId)| == |GameKeys(m, lo, hi, userId, false)|
    ensures |Completed(OfUser(ValuesFrom(m, lo, hi), userId))| == |GameKeys(m, lo, hi, userId, true)|
  {
    ScanCount(m, lo, hi, userId, false);
    ScanCount(m, lo, hi, userId, true);
  }

  /** The records a scan keeps, by owner and, optionally, by completion. */
  function Kept(s: seq<Game>, userId: int, onlyCompleted: bool): seq<Game> {
    if onlyCompleted then Completed(OfUser(s, userId)) else OfUser(s, userId)
  }

  lemma {:induction false} ScanCount(m: map<int, Game>, lo: int, hi: int, userId: int, onlyCompleted: bool)
    ensures |Kept(ValuesFrom(m, lo, hi), userId, onlyCompleted)| == |GameKeys(m, lo, hi, userId, onlyCompleted)|
    decreases hi - lo
  {
    if lo < hi {
      var head := if lo in m then [m[lo]] else [];
      var rest := ValuesFrom(m, lo + 1, hi);
      OfUserAppend(head, rest, userId);
      CompletedAppend(OfUser(head, userId), OfUser(rest, userId));
      assert Kept(head + rest, userId, onlyCompleted) == Kept(head, userId, onlyCompleted) + Kept(rest, userId, onlyCompleted);
      ScanCount(m, lo + 1, hi, userId, onlyCompleted);
      KeysSplit(m, lo, hi, userId, onlyCompleted);
    } else {
      assert GameKeys(m, lo, hi, userId, onlyCompleted) == {};
    }
  }

  lemma KeysSplit(m: map<int, Game>, lo: int, hi: int, userId: int, onlyCompleted: bool)
    requires lo < hi
    ensures var head := if lo in m then [m[lo]] else [];
      |GameKeys(m, lo, hi, userId, onlyCompleted)| ==
        |Kept(head, userId, onlyCompleted)| + |GameKeys(m, lo + 1, hi, userId, onlyCompleted)|
  {
    var head := if lo in m then [m[lo]] else [];
    var rest := GameKeys(m, lo + 1, hi, userId, onlyCompleted);
    if lo in m {
      assert head[1..] == [];
      assert OfUser(head, userId) == if m[lo].userId == userId then head else [];
      if m[lo].userId == userId {
        assert OfUser(head, userId)[1..] == [];
      }
    }
    if lo in m && m[lo].userId == userId && (onlyCompleted ==> m[lo].isCompleted) {
      assert Kept(head, userId, onlyCompleted) == head;
      assert lo !in rest;
      assert GameKeys(m, lo, hi, userId, onlyCompleted) == {lo} + rest;
    } else {
      assert Kept(head, userId, onlyCompleted) == [];
      assert GameKeys(m, lo, hi, userId, onlyCompleted) == rest;
    }
  }

  /** The history row of a game: its id, difficulty, time, completion and dates. */
  function ToHistory(g: Game): (h: GameHistory)
    ensures h.id == g.id && h.difficulty == g.difficulty && h.timeSpent == g.timeSpent
    ensures h.isCompleted == g.isCompleted && h.startedAt == g.startedAt && h.completedAt == g.completedAt
  {
    GameHistory(g.id, g.difficulty, g.timeSpent, g.isCompleted, g.startedAt, g.completedAt)
  }

  /** The `map` to history rows. */
  function HistoryOf(s: seq<Game>): (r: seq<GameHistory>)
    ensures |r| == |s|
    ensures forall i :: 0 <= i < |s| ==> r[i] == ToHistory(s[i])
  {
    if s == [] then [] else [ToHistory(s[0])] + HistoryOf(s[1..])
  }

  predicate NewestFirst(s: seq<GameHistory>) {
    forall i, j :: 0 <= i < j < |s| ==> s[i].startedAt >= s[j].startedAt
  }

  /**
   * `x` placed after every row that started no earlier than it. Used on rows
   * that came before `x`, this keeps ties in their original order, as the
   * stable `sort` does.
   */
  function InsertByStart(x: GameHistory, s: seq<GameHistory>): (r: seq<GameHistory>)
    ensures multiset(r) == multiset(s) + multiset{x}
  {
    if s == [] then [x]
    else if s[0].startedAt < x.startedAt then [x] + s
    else
      assert s == [s[0]] + s[1..];
      [s[0]] + InsertByStart(x, s[1..])
  }

  lemma {:induction false} InsertByStartSorted(x: GameHistory, s: seq<GameHistory>)
    requires NewestFirst(s)
    ensures NewestFirst(InsertByStart(x, s))
  {
    if s != [] && s[0].startedAt >= x.startedAt {
      InsertByStartSorted(x, s[1..]);
      var r := InsertByStart(x, s[1..]);
      forall k | 0 <= k < |r|
        ensures s[0].startedAt >= r[k].startedAt
      {
        assert r[k] in multiset(r);
        if r[k] != x {
          assert r[k] in multiset(s[1..]);
        }
      }
    }
  }

  /** The `sort` by start time, newest first, stable on ties. */
  function SortNewestFirst(s: seq<GameHistory>): (r: seq<GameHistory>)
    ensures multiset(r) == multiset(s)
  {
    if s == [] then []
    else
      assert s == s[..|s| - 1] + [s[|s| - 1]];
      InsertByStart(s[|s| - 1], SortNewestFirst(s[..|s| - 1]))
  }

  lemma {:induction false} SortNewestFirstSorted(s: seq<GameHistory>)
    ensures NewestFirst(SortNewestFirst(s))
  {
    if s != [] {
      SortNewestFirstSorted(s[..|s| - 1]);
      InsertByStartSorted(s[|s| - 1], SortNewestFirst(s[..|s| - 1]));
    }
  }

  /** The record a partial update produces: each field given in `u` replaces the stored one. */
  function Merge(g: Game, u: GameUpdate): (r: Game)
    ensures u.id.Some? ==> r.id == u.id.value
    ensures u.id.None? ==> r.id == g.id
    ensures u.userId.Some? ==> r.userId == u.userId.value
    ensures u.userId.None? ==> r.userId == g.userId
    ensures u.difficulty.Some? ==> r.difficulty == u.difficulty.value
    ensures u.difficulty.None? ==> r.difficulty == g.difficulty
    ensures u.initialBoard.Some? ==> r.initialBoard == u.initialBoard.value
    ensures u.initialBoard.None? ==> r.initialBoard == g.initialBoard
    ensures u.currentBoard.Some? ==> r.currentBoard == u.currentBoard.value
    ensures u.currentBoard.None? ==> r.currentBoard == g.currentBoard
    ensures u.solvedBoard.Some? ==> r.solvedBoard == u.solvedBoard.value
    ensures u.solvedBoard.None? ==> r.solvedBoard == g.solvedBoard
    ensures u.timeSpent.Some? ==> r.timeSpent == u.timeSpent.value
    ensures u.timeSpent.None? ==> r.timeSpent == g.timeSpent
    ensures u.isCompleted.Some? ==> r.isCompleted == u.isCompleted.value
    ensures u.isCompleted.None? ==> r.isCompleted == g.isCompleted
    ensures u.startedAt.Some? ==> r.startedAt == u.startedAt.value
    ensures u.startedAt.None? ==> r.startedAt == g.startedAt
    ensures u.completedAt.Some? ==> r.completedAt == u.completedAt.value
    ensures u.completedAt.None? ==> r.completedAt == g.completedAt
  {
    Game(
      u.id.GetOr(g.id),
      u.userId.GetOr(g.userId),
      u.difficulty.GetOr(g.difficulty),
      u.initialBoard.GetOr(g.initialBoard),
      u.currentBoard.GetOr(g.currentBoard),
      u.solvedBoard.GetOr(g.solvedBoard),
      u.timeSpent.GetOr(g.timeSpent),
      u.isCompleted.GetOr(g.isCompleted),
      u.startedAt.GetOr(g.startedAt),
      u.completedAt.GetOr(g.completedAt))
  }

  /** The update that gives no field. */
  function NoChange(): GameUpdate {
    GameUpdate(None, None, None, None, None, None, None, None, None, None)
  }

  /** The update giving every field of `g`. */
  function Everything(g: Game): GameUpdate {
    GameUpdate(Some(g.id), Some(g.userId), Some(g.difficulty), Some(g.initialBoard), Some(g.currentBoard),
               Some(g.solvedBoard), Some(g.timeSpent), Some(g.isCompleted), Some(g.startedAt), Some(g.completedAt))
  }

  /** Spreading `later` over `earlier`: the fields of `later` win. */
  function Then(earlier: GameUpdate, later: GameUpdate): GameUpdate {
    GameUpdate(
      if later.id.Some? then later.id else earlier.id,
      if later.userId.Some? then later.userId else earlier.userId,
      if later.difficulty.Some? then later.difficulty else earlier.difficulty,
      if later.initialBoard.Some? then later.initialBoard else earlier.initialBoard,
      if later.currentBoard.Some? then later.currentBoard else earlier.currentBoard,
      if later.solvedBoard.Some? then later.solvedBoard else earlier.solvedBoard,
      if later.timeSpent.Some? then later.timeSpent else earlier.timeSpent,
      if later.isCompleted.Some? then later.isCompleted else earlier.isCompleted,
      if later.startedAt.Some? then later.startedAt else earlier.startedAt,
      if later.completedAt.Some? then later.completedAt else earlier.completedAt)
  }

  /**
   * The laws of the field-by-field update: an empty update keeps the record,
   * a full update replaces it, repeating an update changes nothing more, and
   * two updates in a row act as one update combining them.
   */
  lemma MergeLaws(g: Game, u: GameUpdate, v: GameUpdate, h: Game)
    ensures Merge(g, NoChange()) == g
    ensures Merge(g, Everything(h)) == h
    ensures Merge(Merge(g, u), u) == Merge(g, u)
    ensures Merge(Merge(g, u), v) == Merge(g, Then(u, v))
  {
  }

  /** The counters, as percentages and averages kept as ratios; a zero divisor gives 0. */
  function Stats(userGames: seq<Game>): (st: UserStats)
    ensures st.totalGames == |userGames|
    ensures st.completedGames == |Completed(userGames)|
    ensures st.completedGames <= st.totalGames
    ensures st.completionRate.den > 0 && st.averageTime.den > 0
    ensures 0 <= st.completionRate.num <= 100 * st.completionRate.den
    ensures st.totalGames > 0 ==> st.completionRate == Ratio(100 * st.completedGames, st.totalGames)
    ensures st.totalGames == 0 ==> st.completionRate.num == 0
    ensures st.completedGames > 0 ==> st.averageTime == Ratio(TotalTime(Completed(userGames)), st.completedGames)
    ensures st.completedGames == 0 ==> st.averageTime.num == 0
  {
    var total := |userGames|;
    var completed := |Completed(userGames)|;
    var rate := if total > 0 then Ratio(100 * completed, total) else Ratio(0, 1);
    var average := if completed > 0 then Ratio(TotalTime(Completed(userGames)), completed) else Ratio(0, 1);
    UserStats(total, completed, rate, average)
  }

  class MemStorage {
    var users: map<int, User>
    var games: map<int, Game>
    var userIdCounter: int
    var gameIdCounter: int

    /** Every key lies below its counter, and a user's id is its key. */
    ghost predicate Valid()
      reads this
    {
      && 1 <= userIdCounter && 1 <= gameIdCounter
      && (forall id :: id in users ==> 1 <= id < userIdCounter && users[id].id == id)
      && (forall id :: id in games ==> 1 <= id < gameIdCounter)
    }

    constructor ()
      ensures Valid()
      ensures users == map[] && games == map[]
      ensures userIdCounter == 1 && gameIdCounter == 1
    {
      users := map[];
      games := map[];
      userIdCounter := 1;
      gameIdCounter := 1;
    }

    /** The user stored under `id`, if any. */
    function GetUser(id: int): (r: Option<User>)
      reads this
      ensures r.Some? <==> id in users
      ensures r.Some? ==> r.value == users[id]
      ensures Valid() && r.Some? ==> r.value.id == id
    {
      if id in users then Some(users[id]) else None
    }

    /** The first user in id order with exactly this username, or none when no user has it. */
    function GetUserByUsername(username: string): (r: Option<User>)
      reads this
      requires Valid()
      ensures r.Some? ==> r.value.id in users && users[r.value.id] == r.value && r.value.username == username
      ensures r.None? <==> forall id :: id in users ==> users[id].username != username
    {
      var r := FindByUsername(ValuesFrom(users, 1, userIdCounter), username);
      UsersInOrder(users, userIdCounter);
      r
    }

    /** Creating a user: it gets the current counter value as its id, and the counter moves on. */
    method CreateUser(insertUser: InsertUser) returns (user: User)
      requires Valid()
      modifies this
      ensures Valid()
      ensures user == User(old(userIdCounter), insertUser.username)
      ensures forall id :: id in old(users) ==> id < user.id
      ensures users == old(users)[user.id := user] && userIdCounter == old(userIdCounter) + 1
      ensures GetUser(user.id) == Some(user)
      ensures games == old(games) && gameIdCounter == old(gameIdCounter)
    {
      var id := userIdCounter;
      userIdCounter := userIdCounter + 1;
      user := User(id, insertUser.username);
      users := users[id := user];
    }

    /** Creating a game: it gets the current counter value as its id, and the counter moves on. */
    method CreateGame(insertGame: InsertGame) returns (game: Game)
      requires Valid()
      modifies this
      ensures Valid()
      ensures game == WithId(insertGame, old(gameIdCounter))
      ensures forall id :: id in old(games) ==> id < game.id
      ensures games == old(games)[game.id := game] && gameIdCounter == old(gameIdCounter) + 1
      ensures GetGame(game.id) == Some(game)
      ensures users == old(users) && userIdCounter == old(userIdCounter)
    {
      var id := gameIdCounter;
      gameIdCounter := gameIdCounter + 1;
      game := WithId(insertGame, id);
      games := games[id := game];
    }

    /** The game stored under `id`, if any. */
    function GetGame(id: int): (r: Option<Game>)
      reads this
      ensures r.Some? <==> id in games
      ensures r.Some? ==> r.value == games[id]
    {
      if id in games then Some(games[id]) else None
    }

    /**
     * A partial update: on an absent id nothing changes and there is no
     * result; otherwise the stored game becomes its merge with `updates`,
     * under the same key, and nothing else changes.
     */
    method UpdateGame(id: int, updates: GameUpdate) returns (r: Option<Game>)
      requires Valid()
      modifies this
      ensures Valid()
      ensures id !in old(games) ==> r == None && games == old(games)
      ensures id in old(games) ==> r == Some(Merge(old(games)[id], updates)) && games == old(games)[id := r.value]
      ensures users == old(users) && userIdCounter == old(userIdCounter) && gameIdCounter == old(gameIdCounter)
    {
      if id !in games {
        return None;
      }
      var updated := Merge(games[id], updates);
      games := games[id := updated];
      return Some(updated);
    }

    /** A user's games, in id order. */
    function UserGames(userId: int): seq<Game>
      reads this
    {
      OfUser(ValuesFrom(games, 1, gameIdCounter), userId)
    }

    /** A user's history: one row per game of the user, newest first. */
    function GetUserGames(userId: int): (r: seq<GameHistory>)
      reads this
      requires Valid()
      ensures NewestFirst(r)
      ensures |r| == |GameKeys(games, 1, gameIdCounter, userId, false)|
      ensures forall h :: h in r <==> exists id :: id in games && games[id].userId == userId && h == ToHistory(games[id])
    {
      var rows := HistoryOf(UserGames(userId));
      SortNewestFirstSorted(rows);
      ScanCounts(games, 1, gameIdCounter, userId);
      assert |SortNewestFirst(rows)| == |multiset(rows)| == |rows|;
      HistoryMembership(this, userId);
      SortNewestFirst(rows)
    }

    /**
     * A user's counters: how many games the user has, how many of them are
     * completed, the completion percentage and the average time of the
     * completed games.
     */
    function GetUserStats(userId: int): (st: UserStats)
      reads this
      requires Valid()
      ensures st.totalGames == |GameKeys(games, 1, gameIdCounter, userId, false)|
      ensures st.completedGames == |GameKeys(games, 1, gameIdCounter, userId, true)|
      ensures st.completedGames <= st.totalGames
      ensures st.totalGames > 0 ==> st.completionRate == Ratio(100 * st.completedGames, st.totalGames)
      ensures st.totalGames == 0 ==> st.completionRate.num == 0
      ensures st.completedGames > 0 ==>
        st.averageTime == Ratio(TotalTime(Completed(UserGames(userId))), st.completedGames)
      ensures st.completedGames == 0 ==> st.averageTime.num == 0
      ensures (forall id :: id in games ==> games[id].timeSpent >= 0) ==> st.averageTime.num >= 0
    {
      ScanCounts(games, 1, gameIdCounter, userId);
      StatsTimes(this, userId);
      Stats(UserGames(userId))
    }
  }

  /** The record `{...insertGame, id}`. */
  function WithId(ig: InsertGame, id: int): (g: Game)
    ensures g.id == id && g.userId == ig.userId && g.difficulty == ig.difficulty
    ensures g.initialBoard == ig.initialBoard && g.currentBoard == ig.currentBoard && g.solvedBoard == ig.solvedBoard
    ensures g.timeSpent == ig.timeSpent && g.isCompleted == ig.isCompleted
    ensures g.startedAt == ig.startedAt && g.completedAt == ig.completedAt
  {
    Game(id, ig.userId, ig.difficulty, ig.initialBoard, ig.currentBoard, ig.solvedBoard,
         ig.timeSpent, ig.isCompleted, ig.startedAt, ig.completedAt)
  }

  /** With every key below the counter, the scan from 1 sees every user. */
  lemma UsersInOrder(users: map<int, User>, counter: int)
    requires forall id :: id in users ==> 1 <= id < counter && users[id].id == id
    ensures forall u :: u in ValuesFrom(users, 1, counter) <==> u.id in users && users[u.id] == u
  {
    forall u
      ensures u in ValuesFrom(users, 1, counter) <==> u.id in users && users[u.id] == u
    {
      ValuesFromMembership(users, 1, counter, u);
    }
  }

  /** The history rows of a user's games are the rows of the games stored for that user. */
  lemma HistoryMembership(st: MemStorage, userId: int)
    requires st.Valid()
    ensures forall h :: h in SortNewestFirst(HistoryOf(st.UserGames(userId))) <==>
      exists id :: id in st.games && st.games[id].userId == userId && h == ToHistory(st.games[id])
  {
    var rows := HistoryOf(st.UserGames(userId));
    forall h
      ensures h in SortNewestFirst(rows) <==>
        exists id :: id in st.games && st.games[id].userId == userId && h == ToHistory(st.games[id])
    {
      assert h in SortNewestFirst(rows) <==> h in multiset(rows);
      RowOfStoredGame(st.games, st.gameIdCounter, userId, h);
    }
  }

  lemma RowOfStoredGame(games: map<int, Game>, counter: int, userId: int, h: GameHistory)
    requires forall id :: id in games ==> 1 <= id < counter
    ensures h in HistoryOf(OfUser(ValuesFrom(games, 1, counter), userId)) <==>
      exists id :: id in games && games[id].userId == userId && h == ToHistory(games[id])
  {
    var gs := OfUser(ValuesFrom(games, 1, counter), userId);
    var rows := HistoryOf(gs);
    if h in rows {
      var i :| 0 <= i < |rows| && rows[i] == h;
      ValuesFromMembership(games, 1, counter, gs[i]);
    }
    if exists id :: id in games && games[id].userId == userId && h == ToHistory(games[id]) {
      var id :| id in games && games[id].userId == userId && h == ToHistory(games[id]);
      ValuesFromMembership(games, 1, counter, games[id]);
      assert games[id] in gs;
      var i :| 0 <= i < |gs| && gs[i] == games[id];
      assert rows[i] == h;
    }
  }

  /** Non-negative stored times give a non-negative total time of a user's completed games. */
  lemma StatsTimes(st: MemStorage, userId: int)
    ensures (forall id :: id in st.games ==> st.games[id].timeSpent >= 0) ==>
      TotalTime(Completed(st.UserGames(userId))) >= 0
  {
    var cs := Completed(st.UserGames(userId));
    if forall id :: id in st.games ==> st.games[id].timeSpent >= 0 {
      forall g | g in cs
        ensures g.timeSpent >= 0
      {
        ValuesFromMembership(st.games, 1, st.gameIdCounter, g);
      }
      TotalTimeNonNegative(cs);
    }
  }
}

=== FILE: sudoku.dfy ===
/**
 * The puzzle engine: placement check, randomized and deterministic
 * backtracking over a 9x9 number matrix, puzzle carving, the error scan, the
 * completion predicates and the timer format.
 *
 * `Math.random()` is modelled by a nondeterministic index choice: every
 * property below holds whichever indices the shuffles pick.
 */
module Sudoku {
  import opened Wrappers
  import opened Decimal
  import opened Schema
  import opened SudokuRules
  import opened Sequences

  /** A fresh board of empty cells. */
  method CreateEmptyBoard() returns (b: Board)
    ensures IsBoard(b)
    ensures forall r, c :: InBounds(r, c) ==> b[r][c] == EmptyCell()
  {
    b := [];
    for i := 0 to Size
      invariant |b| == i
      invariant forall r :: 0 <= r < i ==> |b[r]| == Size
      invariant forall r, c :: 0 <= r < i && 0 <= c < Size ==> b[r][c] == EmptyCell()
    {
      var row: seq<Cell> := [];
      for j := 0 to Size
        invariant |row| == j && forall c :: 0 <= c < j ==> row[c] == EmptyCell()
      {
        row := row + [EmptyCell()];
      }
      b := b + [row];
    }
  }

  /** The contents of a number matrix as a grid value. */
  function GridOf(a: array2<int>): (g: Grid)
    reads a
    requires a.Length0 == Size && a.Length1 == Size
    ensures IsBoard(g)
    ensures forall r, c :: InBounds(r, c) ==> g[r][c] == a[r, c]
  {
    seq(Size, r requires 0 <= r < Size reads a =>
      seq(Size, c requires 0 <= c < Size reads a => a[r, c]))
  }

  /** A grid value is determined by its cells. */
  lemma GridsEqual(g: Grid, h: Grid)
    requires IsBoard(g) && IsBoard(h)
    requires forall r, c :: InBounds(r, c) ==> g[r][c] == h[r][c]
    ensures g == h
  {
    forall r | 0 <= r < Size ensures g[r] == h[r] {
      assert forall c :: 0 <= c < Size ==> g[r][c] == h[r][c];
    }
  }

  /**
   * The placement check: true iff `num` occurs nowhere in the row, the column
   * and the 3x3 box of (row, col).
   */
  method IsValidPlacement(a: array2<int>, row: int, col: int, num: int) returns (ok: bool)
    requires a.Length0 == Size && a.Length1 == Size && InBounds(row, col)
    ensures ok <==> CanPlace(GridOf(a), row, col, num)
  {
    ok := RowLacks(a, row, num);
    if !ok {
      return;
    }
    ok := ColumnLacks(a, col, num);
    if !ok {
      return;
    }
    ok := BoxLacks(a, row, col, num);
  }

  /** The row loop of the placement check. */
  method RowLacks(a: array2<int>, row: int, num: int) returns (ok: bool)
    requires a.Length0 == Size && a.Length1 == Size && 0 <= row < Size
    ensures ok <==> forall x :: 0 <= x < Size ==> GridOf(a)[row][x] != num
  {
    ghost var g := GridOf(a);
    for x := 0 to Size
      invariant forall x' :: 0 <= x' < x ==> g[row][x'] != num
    {
      if a[row, x] == num {
        return false;
      }
    }
    return true;
  }

  /** The column loop of the placement check. */
  method ColumnLacks(a: array2<int>, col: int, num: int) returns (ok: bool)
    requires a.Length0 == Size && a.Length1 == Size && 0 <= col < Size
    ensures ok <==> forall x :: 0 <= x < Size ==> GridOf(a)[x][col] != num
  {
    ghost var g := GridOf(a);
    for x := 0 to Size
      invariant forall x' :: 0 <= x' < x ==> g[x'][col] != num
    {
      if a[x, col] == num {
        return false;
      }
    }
    return true;
  }

  /** The box loops of the placement check. */
  method BoxLacks(a: array2<int>, row: int, col: int, num: int) returns (ok: bool)
    requires a.Length0 == Size && a.Length1 == Size && InBounds(row, col)
    ensures ok <==> forall i, j :: 0 <= i < 3 && 0 <= j < 3 ==> GridOf(a)[BoxCoord(row, i)][BoxCoord(col, j)] != num
  {
    ghost var g := GridOf(a);
    BoxOrigin(row);
    BoxOrigin(col);
    var boxRow := row / 3 * 3;
    var boxCol := col / 3 * 3;
    for i := 0 to 3
      invariant forall i', j' :: 0 <= i' < i && 0 <= j' < 3 ==> g[BoxCoord(row, i')][BoxCoord(col, j')] != num
    {
      ok := BoxRowLacks(a, boxRow + i, boxCol, num);
      assert g == GridOf(a) && BoxCoord(row, i) == boxRow + i;
      if !ok {
        ghost var c :| boxCol <= c < boxCol + 3 && g[boxRow + i][c] == num;
        assert g[BoxCoord(row, i)][BoxCoord(col, c - boxCol)] == num;
        return;
      }
      forall j | 0 <= j < 3
        ensures g[BoxCoord(row, i)][BoxCoord(col, j)] != num
      {
        var c := BoxCoord(col, j);
        assert boxCol <= c < boxCol + 3;
        assert g[boxRow + i][c] != num;
      }
    }
    return true;
  }

  /** Row `r` of the box loops: the three cells from column `c0` on. */
  method BoxRowLacks(a: array2<int>, r: int, c0: int, num: int) returns (ok: bool)
    requires a.Length0 == Size && a.Length1 == Size && 0 <= r < Size && 0 <= c0 <= 6
    ensures ok <==> forall c :: c0 <= c < c0 + 3 ==> GridOf(a)[r][c] != num
  {
    ghost var g := GridOf(a);
    for j := 0 to 3
      invariant forall c :: c0 <= c < c0 + j ==> g[r][c] != num
    {
      if a[r, c0 + j] == num {
        return false;
      }
    }
    return true;
  }

  /** The first row (or column) of the box holding `r` is 0, 3 or 6. */
  lemma BoxOrigin(r: int)
    requires 0 <= r < Size
    ensures 0 <= r / 3 * 3 <= 6
  {
  }

  /** Fisher-Yates: for any choice of swap partner j <= i at each step, a permutation. */
  method Shuffle<T>(a: array<T>)
    modifies a
    ensures multiset(a[..]) == multiset(old(a[..]))
  {
    var i := a.Length - 1;
    while i > 0
      invariant i < a.Length
      invariant multiset(a[..]) == multiset(old(a[..]))
    {
      var j :| 0 <= j <= i;
      a[i], a[j] := a[j], a[i];
      i := i - 1;
    }
  }

  /** The digits 1..9 in shuffled order: nine distinct digits, each in 1..9. */
  method ShuffledDigits() returns (nums: seq<int>)
    ensures |nums| == 9 && Distinct(nums)
    ensures forall k :: 0 <= k < |nums| ==> 1 <= nums[k] <= 9
  {
    var a := new int[] [1, 2, 3, 4, 5, 6, 7, 8, 9];
    ghost var digits := a[..];
    assert forall i :: 0 <= i < 9 ==> digits[i] == i + 1;
    Shuffle(a);
    nums := a[..];
    DistinctPermutation(nums, digits);
    forall k | 0 <= k < |nums| ensures 1 <= nums[k] <= 9 {
      assert nums[k] in multiset(digits);
    }
  }

  /**
   * Randomized backtracking: fills the first empty cell (row-major) with each
   * shuffled digit that the placement check accepts and recurses. On success
   * every empty cell holds a digit and the other cells are untouched; on
   * failure the matrix is as it was on entry.
   */
  method FillBoard(a: array2<int>) returns (ok: bool)
    requires a.Length0 == Size && a.Length1 == Size
    modifies a
    ensures ok ==> FilledFrom(old(GridOf(a)), GridOf(a))
    ensures !ok ==> GridOf(a) == old(GridOf(a))
    decreases |Empties(GridOf(a))|
  {
    ghost var g0 := GridOf(a);
    for row := 0 to Size
      invariant forall r, c :: InBounds(r, c) ==> a[r, c] == g0[r][c]
      invariant forall r, c :: 0 <= r < row && 0 <= c < Size ==> g0[r][c] != 0
    {
      for col := 0 to Size
        invariant forall r, c :: InBounds(r, c) ==> a[r, c] == g0[r][c]
        invariant forall r, c :: InBounds(r, c) && (r < row || (r == row && c < col)) ==> g0[r][c] != 0
      {
        if a[row, col] == 0 {
          var nums := ShuffledDigits();
          for k := 0 to |nums|
            invariant forall r, c :: InBounds(r, c) ==> a[r, c] == g0[r][c]
          {
            var num := nums[k];
            GridsEqual(GridOf(a), g0);
            var valid := IsValidPlacement(a, row, col, num);
            if valid {
              a[row, col] := num;
              GridsEqual(GridOf(a), SetValue(g0, row, col, num));
              PlaceShrinksEmpties(g0, row, col, num);
              var done := FillBoard(a);
              if done {
                FilledAfterPlace(g0, row, col, num, GridOf(a));
                return true;
              }
              a[row, col] := 0;
            }
          }
          GridsEqual(GridOf(a), g0);
          return false;
        }
      }
    }
    GridsEqual(GridOf(a), g0);
    FullGridFilledFromItself(g0);
    return true;
  }

  /**
   * A solved number matrix. The generator ignores whether backtracking
   * succeeded; had it failed, the matrix would still be all zeros.
   */
  method GenerateSolvedBoard() returns (g: Grid)
    ensures IsBoard(g)
    ensures IsSolution(g) || g == ZeroGrid()
  {
    var board := new int[Size, Size]((_, _) => 0);
    GridsEqual(GridOf(board), ZeroGrid());
    var ok := FillBoard(board);
    g := GridOf(board);
    if ok {
      CompletedZeroGridIsSolution(g);
    }
  }

  /** The number of cells carved away at difficulty `d`: 30 + floor((d - 1) * 3.5). */
  function RemovalCount(d: Difficulty): nat {
    30 + (7 * (d - 1)) / 2
  }

  /** The integer formula agrees with the floating-point one of the source. */
  lemma RemovalCountIsFloor(d: Difficulty)
    ensures RemovalCount(d) == 30 + ((d - 1) as real * 3.5).Floor
  {
  }

  /** From 30 cells at difficulty 1 up to 61 at difficulty 10, never fewer for a harder level. */
  lemma RemovalCountBounds(d: Difficulty, d': Difficulty)
    ensures 30 <= RemovalCount(d) <= 61
    ensures RemovalCount(1) == 30 && RemovalCount(10) == 61
    ensures d <= d' ==> RemovalCount(d) <= RemovalCount(d')
  {
  }

  /** The cell of a solved grid as a given of the puzzle. */
  function GivenCell(v: int): Cell {
    Cell(v, Filled, [])
  }

  /** A number matrix converted to cells, every one a given. */
  function GivenBoard(g: Grid): (b: Board)
    requires IsBoard(g)
    ensures IsBoard(b) && Values(b) == g
    ensures forall r, c :: InBounds(r, c) ==> b[r][c] == GivenCell(g[r][c])
  {
    var b := seq(Size, r requires 0 <= r < Size => seq(Size, c requires 0 <= c < Size => GivenCell(g[r][c])));
    GridsEqual(Values(b), g);
    b
  }

  /** The positions of the cells whose status is `Empty`. */
  ghost function ClearedCells(b: Board): set<(int, int)>
    requires IsBoard(b)
  {
    set r, c | 0 <= r < Size && 0 <= c < Size && b[r][c].status == Empty :: (r, c)
  }

  /** The set of the first `n` entries. */
  ghost function Prefix<T>(s: seq<T>, n: nat): set<T>
    requires n <= |s|
  {
    set k | 0 <= k < n :: s[k]
  }

  lemma {:induction false} PrefixSize<T>(s: seq<T>, n: nat)
    requires n <= |s| && Distinct(s)
    ensures |Prefix(s, n)| == n
  {
    if n > 0 {
      PrefixSize(s, n - 1);
      assert Prefix(s, n) == Prefix(s, n - 1) + {s[n - 1]};
      assert s[n - 1] !in Prefix(s, n - 1);
    }
  }

  /** The 81 cell positions, listed row by row and then shuffled: each position exactly once. */
  method ShuffledPositions() returns (ps: seq<(int, int)>)
    ensures |ps| == Size * Size && Distinct(ps)
    ensures forall k :: 0 <= k < |ps| ==> InBounds(ps[k].0, ps[k].1)
  {
    var positions := new (int, int)[Size * Size];
    for i := 0 to Size
      invariant forall k :: 0 <= k < i * Size ==> InBounds(positions[k].0, positions[k].1)
      invariant forall k :: 0 <= k < i * Size ==> positions[k].0 < i
      invariant forall k, k' :: 0 <= k < k' < i * Size ==> positions[k] != positions[k']
    {
      for j := 0 to Size
        invariant forall k :: 0 <= k < i * Size + j ==> InBounds(positions[k].0, positions[k].1)
        invariant forall k :: 0 <= k < i * Size + j ==>
          positions[k].0 < i || (positions[k].0 == i && positions[k].1 < j)
        invariant forall k, k' :: 0 <= k < k' < i * Size + j ==> positions[k] != positions[k']
      {
        positions[i * Size + j] := (i, j);
      }
    }
    ghost var all := positions[..];
    Shuffle(positions);
    ps := positions[..];
    DistinctPermutation(ps, all);
    forall k | 0 <= k < |ps| ensures InBounds(ps[k].0, ps[k].1) {
      assert ps[k] in multiset(all);
    }
  }

  /**
   * Carving: converts the solved matrix to givens, shuffles the 81 positions
   * and clears the first RemovalCount(d) of them. Exactly that many cells end
   * up `Empty` with value 0; every other cell is the given of the solved value.
   */
  method CreatePuzzle(solved: Grid, d: Difficulty) returns (initial: Board)
    requires IsBoard(solved)
    ensures IsBoard(initial)
    ensures forall r, c :: InBounds(r, c) ==>
      initial[r][c] == if initial[r][c].status == Empty then EmptyCell() else GivenCell(solved[r][c])
    ensures |ClearedCells(initial)| == RemovalCount(d)
  {
    initial := GivenBoard(solved);
    var cellsToRemove := RemovalCount(d);

    var positions := ShuffledPositions();
    for i := 0 to cellsToRemove
      invariant IsBoard(initial)
      invariant forall r, c :: InBounds(r, c) ==>
        initial[r][c] == if (r, c) in Prefix(positions, i) then EmptyCell() else GivenCell(solved[r][c])
    {
      if i < |positions| {
        var (row, col) := positions[i];
        initial := initial[row := initial[row][col := EmptyCell()]];
        assert Prefix(positions, i + 1) == Prefix(positions, i) + {(row, col)};
      }
    }
    assert ClearedCells(initial) == Prefix(positions, cellsToRemove);
    PrefixSize(positions, cellsToRemove);
  }

  /**
   * A new game: the solved board (every cell a given) and the puzzle carved
   * from it, whose kept cells are exactly the solved board's cells.
   */
  method GenerateSudoku(d: Difficulty) returns (initialBoard: Board, solvedBoard: Board)
    ensures IsBoard(initialBoard) && IsBoard(solvedBoard)
    ensures IsSolution(Values(solvedBoard)) || Values(solvedBoard) == ZeroGrid()
    ensures forall r, c :: InBounds(r, c) ==> solvedBoard[r][c].status == Filled
    ensures forall r, c :: InBounds(r, c) ==>
      initialBoard[r][c] == if initialBoard[r][c].status == Empty then EmptyCell() else solvedBoard[r][c]
    ensures |ClearedCells(initialBoard)| == RemovalCount(d)
  {
    var solvedNumberBoard := GenerateSolvedBoard();
    solvedBoard := GivenBoard(solvedNumberBoard);
    initialBoard := CreatePuzzle(solvedNumberBoard, d);
  }

  /** No cell of the board is empty. */
  ghost predicate IsFull(b: Board)
    requires IsBoard(b)
  {
    forall r, c :: InBounds(r, c) ==> b[r][c].value != 0
  }

  /** Both boards hold the same value at every position; statuses and notes do not matter. */
  ghost predicate SameValues(b: Board, s: Board)
    requires IsBoard(b) && IsBoard(s)
  {
    forall r, c :: InBounds(r, c) ==> b[r][c].value == s[r][c].value
  }

  method IsBoardComplete(board: Board) returns (complete: bool)
    requires IsBoard(board)
    ensures complete <==> IsFull(board)
  {
    for i := 0 to Size
      invariant forall r, c :: 0 <= r < i && 0 <= c < Size ==> board[r][c].value != 0
    {
      for j := 0 to Size
        invariant forall r, c :: InBounds(r, c) && (r < i || (r == i && c < j)) ==> board[r][c].value != 0
      {
        if board[i][j].value == 0 {
          return false;
        }
      }
    }
    return true;
  }

  method IsBoardCorrect(currentBoard: Board, solvedBoard: Board) returns (correct: bool)
    requires IsBoard(currentBoard) && IsBoard(solvedBoard)
    ensures correct <==> SameValues(currentBoard, solvedBoard)
  {
    for i := 0 to Size
      invariant forall r, c :: 0 <= r < i && 0 <= c < Size ==> currentBoard[r][c].value == solvedBoard[r][c].value
    {
      for j := 0 to Size
        invariant forall r, c :: InBounds(r, c) && (r < i || (r == i && c < j)) ==>
          currentBoard[r][c].value == solvedBoard[r][c].value
      {
        if currentBoard[i][j].value != solvedBoard[i][j].value {
          return false;
        }
      }
    }
    return true;
  }

  /**
   * Deterministic backtracking: like FillBoard, but trying the candidates 1..9
   * in ascending order.
   */
  method Solve(a: array2<int>) returns (ok: bool)
    requires a.Length0 == Size && a.Length1 == Size
    modifies a
    ensures ok ==> FilledFrom(old(GridOf(a)), GridOf(a))
    ensures !ok ==> GridOf(a) == old(GridOf(a))
    decreases |Empties(GridOf(a))|
  {
    ghost var g0 := GridOf(a);
    for row := 0 to Size
      invariant forall r, c :: InBounds(r, c) ==> a[r, c] == g0[r][c]
      invariant forall r, c :: 0 <= r < row && 0 <= c < Size ==> g0[r][c] != 0
    {
      for col := 0 to Size
        invariant forall r, c :: InBounds(r, c) ==> a[r, c] == g0[r][c]
        invariant forall r, c :: InBounds(r, c) && (r < row || (r == row && c < col)) ==> g0[r][c] != 0
      {
        if a[row, col] == 0 {
          for num := 1 to 10
            invariant forall r, c :: InBounds(r, c) ==> a[r, c] == g0[r][c]
          {
            GridsEqual(GridOf(a), g0);
            var valid := IsValidPlacement(a, row, col, num);
            if valid {
              a[row, col] := num;
              GridsEqual(GridOf(a), SetValue(g0, row, col, num));
              PlaceShrinksEmpties(g0, row, col, num);
              var done := Solve(a);
              if done {
                FilledAfterPlace(g0, row, col, num, GridOf(a));
                return true;
              }
              a[row, col] := 0;
            }
          }
          GridsEqual(GridOf(a), g0);
          return false;
        }
      }
    }
    GridsEqual(GridOf(a), g0);
    FullGridFilledFromItself(g0);
    return true;
  }

  /**
   * `s` is what the solver returns for `board`: each originally nonzero cell
   * is unchanged (value, status and notes), each originally empty cell holds a
   * digit 1..9 with status `UserFilled` and keeps its notes.
   */
  ghost predicate SolvedFrom(board: Board, s: Board)
    requires IsBoard(board) && IsBoard(s)
  {
    forall r, c :: InBounds(r, c) ==>
      if board[r][c].value != 0 then s[r][c] == board[r][c]
      else 1 <= s[r][c].value <= 9 && s[r][c] == board[r][c].(value := s[r][c].value, status := UserFilled)
  }

  /** A cell of the solver's result: the solved value, and `UserFilled` where the cell was empty. */
  function SolvedCell(cell: Cell, v: int): Cell {
    cell.(value := v, status := if cell.value == 0 then UserFilled else cell.status)
  }

  /**
   * The solver works on a copy of the board's values; the argument is a value
   * and cannot change. A result, when there is one, solves the board and is
   * conflict-free whenever the board was.
   */
  method SolveSudoku(board: Board) returns (result: Option<Board>)
    requires IsBoard(board)
    ensures result.Some? ==> IsBoard(result.value) && SolvedFrom(board, result.value)
    ensures result.Some? && NoConflicts(Values(board)) ==> NoConflicts(Values(result.value))
  {
    var numberBoard := new int[Size, Size]((r, c) requires InBounds(r, c) => board[r][c].value);
    GridsEqual(GridOf(numberBoard), Values(board));
    var ok := Solve(numberBoard);
    if !ok {
      return None;
    }
    ghost var g := GridOf(numberBoard);
    var solvedBoard := board;
    for row := 0 to Size
      invariant IsBoard(solvedBoard)
      invariant forall r, c :: InBounds(r, c) ==>
        solvedBoard[r][c] == if r < row then SolvedCell(board[r][c], g[r][c]) else board[r][c]
    {
      for col := 0 to Size
        invariant IsBoard(solvedBoard)
        invariant forall r, c :: InBounds(r, c) ==>
          solvedBoard[r][c] == if r < row || (r == row && c < col) then SolvedCell(board[r][c], g[r][c]) else board[r][c]
      {
        var cell := solvedBoard[row][col].(value := numberBoard[row, col]);
        if board[row][col].value == 0 {
          cell := cell.(status := UserFilled);
        }
        solvedBoard := solvedBoard[row := solvedBoard[row][col := cell]];
      }
    }
    GridsEqual(Values(solvedBoard), g);
    return Some(solvedBoard);
  }

  /** The shape of an error key: `r`, a row digit 0..8, `c`, a column digit 0..8. */
  predicate IsCellKey(k: string) {
    |k| == 4 && k[0] == 'r' && k[2] == 'c' && '0' <= k[1] <= '8' && '0' <= k[3] <= '8'
  }

  /** The error key `r{row}c{col}`; for a cell of the board its digits give back row and column. */
  function CellKey(row: int, col: int): (k: string)
    ensures InBounds(row, col) ==> IsCellKey(k) && DigitValue(k[1]) == row && DigitValue(k[3]) == col
  {
    "r" + IntToString(row) + "c" + IntToString(col)
  }

  /** Every well-formed key is the key of the cell its digits name. */
  lemma CellKeyDecode(k: string)
    requires IsCellKey(k)
    ensures InBounds(DigitValue(k[1]), DigitValue(k[3]))
    ensures k == CellKey(DigitValue(k[1]), DigitValue(k[3]))
  {
    var key := CellKey(DigitValue(k[1]), DigitValue(k[3]));
    assert key[1] == k[1] && key[3] == k[3];
  }

  /** Whether the error set holds the key of cell (row, col). The board is not consulted. */
  function HasCellError(row: int, col: int, board: Board, errors: set<string>): (e: bool)
    ensures InBounds(row, col) ==>
      (e <==> exists k :: k in errors && IsCellKey(k) && DigitValue(k[1]) == row && DigitValue(k[3]) == col)
  {
    CellKeysDecode();
    CellKey(row, col) in errors
  }

  /** Every well-formed key names one cell and is that cell's key. */
  lemma CellKeysDecode()
    ensures forall k :: IsCellKey(k) ==> k == CellKey(DigitValue(k[1]), DigitValue(k[3]))
  {
    forall k | IsCellKey(k)
      ensures k == CellKey(DigitValue(k[1]), DigitValue(k[3]))
    {
      CellKeyDecode(k);
    }
  }

  /** The row scan: adds the key of every cell that repeats a value further left in its row. */
  method AddRowErrors(board: Board, errors0: set<string>) returns (errors: set<string>)
    requires IsBoard(board)
    ensures errors0 <= errors
    ensures forall k :: k in errors && k !in errors0 ==> IsCellKey(k)
    ensures forall r, c :: InBounds(r, c) ==>
      (CellKey(r, c) in errors <==> CellKey(r, c) in errors0 || RowDup(Values(board), r, c))
  {
    ghost var g := Values(board);
    errors := errors0;
    for row := 0 to Size
      invariant errors0 <= errors
      invariant forall k :: k in errors && k !in errors0 ==> IsCellKey(k)
      invariant forall r, c :: InBounds(r, c) ==>
        (CellKey(r, c) in errors <==> CellKey(r, c) in errors0 || (r < row && RowDup(g, r, c)))
    {
      var values: set<int> := {};
      for col := 0 to Size
        invariant errors0 <= errors
        invariant forall k :: k in errors && k !in errors0 ==> IsCellKey(k)
        invariant forall v :: v in values <==> v != 0 && exists c' :: 0 <= c' < col && g[row][c'] == v
        invariant forall r, c :: InBounds(r, c) ==>
          (CellKey(r, c) in errors <==> CellKey(r, c) in errors0 || ((r < row || (r == row && c < col)) && RowDup(g, r, c)))
      {
        var value := board[row][col].value;
        if value != 0 {
          if value in values {
            errors := errors + {CellKey(row, col)};
          } else {
            values := values + {value};
          }
        }
      }
    }
  }

  /** The column scan: adds the key of every cell that repeats a value higher up in its column. */
  method AddColumnErrors(board: Board, errors0: set<string>) returns (errors: set<string>)
    requires IsBoard(board)
    ensures errors0 <= errors
    ensures forall k :: k in errors && k !in errors0 ==> IsCellKey(k)
    ensures forall r, c :: InBounds(r, c) ==>
      (CellKey(r, c) in errors <==> CellKey(r, c) in errors0 || ColDup(Values(board), r, c))
  {
    ghost var g := Values(board);
    errors := errors0;
    for col := 0 to Size
      invariant errors0 <= errors
      invariant forall k :: k in errors && k !in errors0 ==> IsCellKey(k)
      invariant forall r, c :: InBounds(r, c) ==>
        (CellKey(r, c) in errors <==> CellKey(r, c) in errors0 || (c < col && ColDup(g, r, c)))
    {
      var values: set<int> := {};
      for row := 0 to Size
        invariant errors0 <= errors
        invariant forall k :: k in errors && k !in errors0 ==> IsCellKey(k)
        invariant forall v :: v in values <==> v != 0 && exists r' :: 0 <= r' < row && g[r'][col] == v
        invariant forall r, c :: InBounds(r, c) ==>
          (CellKey(r, c) in errors <==> CellKey(r, c) in errors0 || ((c < col || (c == col && r < row)) && ColDup(g, r, c)))
      {
        var value := board[row][col].value;
        if value != 0 {
          if value in values {
            errors := errors + {CellKey(row, col)};
          } else {
            values := values + {value};
          }
        }
      }
    }
  }

  /**
   * Progress of the box scan: the keys added so far are those of the box
   * duplicates among the first `bound` cells in box-scan order.
   */
  ghost predicate BoxScanUpTo(g: Grid, errors0: set<string>, errors: set<string>, bound: int)
    requires IsBoard(g)
  {
    && errors0 <= errors
    && (forall k :: k in errors && k !in errors0 ==> IsCellKey(k))
    && forall r, c :: InBounds(r, c) ==>
      (CellKey(r, c) in errors <==> CellKey(r, c) in errors0 || (BoxScanIndex(r, c) < bound && BoxDup(g, r, c)))
  }

  /**
   * The values met so far in box (boxRow, boxCol): the nonzero values of its
   * first `n` cells in row-major order.
   */
  ghost predicate SeenInBox(g: Grid, values: set<int>, boxRow: int, boxCol: int, n: int)
    requires IsBoard(g) && 0 <= boxRow < 3 && 0 <= boxCol < 3
  {
    forall v :: v in values <==> (v != 0 && MetInBox(g, boxRow, boxCol, n, v))
  }

  /** Value `v` is held by one of the first `n` cells of box (boxRow, boxCol) in row-major order. */
  ghost predicate MetInBox(g: Grid, boxRow: int, boxCol: int, n: int, v: int)
    requires IsBoard(g) && 0 <= boxRow < 3 && 0 <= boxCol < 3
  {
    exists i, j :: 0 <= i < 3 && 0 <= j < 3 && i * 3 + j < n &&
      g[BoxCoord(boxRow * 3, i)][BoxCoord(boxCol * 3, j)] == v
  }

  /** The cells before position i * 3 + j + 1 are those before i * 3 + j and cell (i, j). */
  lemma MetInBoxStep(g: Grid, boxRow: int, boxCol: int, i: int, j: int, v: int)
    requires IsBoard(g) && 0 <= boxRow < 3 && 0 <= boxCol < 3 && 0 <= i < 3 && 0 <= j < 3
    ensures MetInBox(g, boxRow, boxCol, i * 3 + j + 1, v) <==>
      MetInBox(g, boxRow, boxCol, i * 3 + j, v) || g[BoxCoord(boxRow * 3, i)][BoxCoord(boxCol * 3, j)] == v
  {
    if MetInBox(g, boxRow, boxCol, i * 3 + j + 1, v) && !MetInBox(g, boxRow, boxCol, i * 3 + j, v) {
      var i', j' :| 0 <= i' < 3 && 0 <= j' < 3 && i' * 3 + j' < i * 3 + j + 1 &&
        g[BoxCoord(boxRow * 3, i')][BoxCoord(boxCol * 3, j')] == v;
      assert i' == i && j' == j;
    }
  }

  /** The box scan: adds the key of every cell that repeats a value earlier in its box. */
  method AddBoxErrors(board: Board, errors0: set<string>) returns (errors: set<string>)
    requires IsBoard(board)
    ensures errors0 <= errors
    ensures forall k :: k in errors && k !in errors0 ==> IsCellKey(k)
    ensures forall r, c :: InBounds(r, c) ==>
      (CellKey(r, c) in errors <==> CellKey(r, c) in errors0 || BoxDup(Values(board), r, c))
  {
    ghost var g := Values(board);
    errors := errors0;
    BoxScanStart(g, errors0);
    for boxRow := 0 to 3
      invariant BoxScanUpTo(g, errors0, errors, boxRow * 27)
    {
      errors := AddBandBoxErrors(board, errors0, errors, boxRow);
    }
    BoxScanComplete(g, errors0, errors);
  }

  /** The scan of the three boxes of band `boxRow`, the next 27 cells in box-scan order. */
  method AddBandBoxErrors(board: Board, ghost errors0: set<string>, errors1: set<string>, boxRow: int)
    returns (errors: set<string>)
    requires IsBoard(board) && 0 <= boxRow < 3
    requires BoxScanUpTo(Values(board), errors0, errors1, boxRow * 27)
    ensures BoxScanUpTo(Values(board), errors0, errors, boxRow * 27 + 27)
  {
    errors := errors1;
    for boxCol := 0 to 3
      invariant BoxScanUpTo(Values(board), errors0, errors, boxRow * 27 + boxCol * 9)
    {
      errors := AddOneBoxErrors(board, errors0, errors, boxRow, boxCol);
    }
  }

  /** Before the box scan, no position has been passed. */
  lemma BoxScanStart(g: Grid, errors0: set<string>)
    requires IsBoard(g)
    ensures BoxScanUpTo(g, errors0, errors0, 0)
  {
    forall r, c | InBounds(r, c)
      ensures BoxScanIndex(r, c) >= 0
    {
      BoxArithmetic(r);
      BoxArithmetic(c);
    }
  }

  /** After all 81 positions of the box scan, the added keys are those of every box duplicate. */
  lemma BoxScanComplete(g: Grid, errors0: set<string>, errors: set<string>)
    requires IsBoard(g) && BoxScanUpTo(g, errors0, errors, 81)
    ensures forall r, c :: InBounds(r, c) ==>
      (CellKey(r, c) in errors <==> CellKey(r, c) in errors0 || BoxDup(g, r, c))
  {
    forall r, c | InBounds(r, c)
      ensures BoxScanIndex(r, c) < 81
    {
      BoxArithmetic(r);
      BoxArithmetic(c);
    }
  }

  /** The scan of box (boxRow, boxCol), the next nine cells in box-scan order. */
  method AddOneBoxErrors(board: Board, ghost errors0: set<string>, errors1: set<string>, boxRow: int, boxCol: int)
    returns (errors: set<string>)
    requires IsBoard(board) && 0 <= boxRow < 3 && 0 <= boxCol < 3
    requires BoxScanUpTo(Values(board), errors0, errors1, boxRow * 27 + boxCol * 9)
    ensures BoxScanUpTo(Values(board), errors0, errors, boxRow * 27 + boxCol * 9 + 9)
  {
    ghost var g := Values(board);
    errors := errors1;
    var values: set<int> := {};
    for i := 0 to 3
      invariant BoxScanUpTo(g, errors0, errors, boxRow * 27 + boxCol * 9 + i * 3)
      invariant SeenInBox(g, values, boxRow, boxCol, i * 3)
    {
      for j := 0 to 3
        invariant BoxScanUpTo(g, errors0, errors, boxRow * 27 + boxCol * 9 + i * 3 + j)
        invariant SeenInBox(g, values, boxRow, boxCol, i * 3 + j)
      {
        errors, values := ScanBoxCell(board, errors0, errors, values, boxRow, boxCol, i, j);
      }
    }
  }

  /** One cell of the box scan: a value met before in the box is an error, a new one is remembered. */
  method ScanBoxCell(board: Board, ghost errors0: set<string>, errors1: set<string>, values1: set<int>,
                     boxRow: int, boxCol: int, i: int, j: int)
    returns (errors: set<string>, values: set<int>)
    requires IsBoard(board) && 0 <= boxRow < 3 && 0 <= boxCol < 3 && 0 <= i < 3 && 0 <= j < 3
    requires BoxScanUpTo(Values(board), errors0, errors1, boxRow * 27 + boxCol * 9 + i * 3 + j)
    requires SeenInBox(Values(board), values1, boxRow, boxCol, i * 3 + j)
    ensures BoxScanUpTo(Values(board), errors0, errors, boxRow * 27 + boxCol * 9 + i * 3 + j + 1)
    ensures SeenInBox(Values(board), values, boxRow, boxCol, i * 3 + j + 1)
  {
    ghost var g := Values(board);
    errors, values := errors1, values1;
    var row := boxRow * 3 + i;
    var col := boxCol * 3 + j;
    var value := board[row][col].value;
    BoxScanIndexOf(boxRow, boxCol, i, j);
    BoxSeenIsDup(g, values, boxRow, boxCol, i, j);
    BoxSeenStep(g, values, boxRow, boxCol, i, j);
    BoxScanStep(g, errors0, errors, row, col, boxRow * 27 + boxCol * 9 + i * 3 + j,
                value != 0 && value in values);
    if value != 0 {
      if value in values {
        errors := errors + {CellKey(row, col)};
      } else {
        values := values + {value};
      }
    }
  }

  /** At cell (i, j) of a box, the value is a box duplicate iff it was met earlier in the box. */
  lemma BoxSeenIsDup(g: Grid, values: set<int>, boxRow: int, boxCol: int, i: int, j: int)
    requires IsBoard(g) && 0 <= boxRow < 3 && 0 <= boxCol < 3 && 0 <= i < 3 && 0 <= j < 3
    requires SeenInBox(g, values, boxRow, boxCol, i * 3 + j)
    ensures var row, col := boxRow * 3 + i, boxCol * 3 + j;
      g[row][col] != 0 ==> (g[row][col] in values <==> BoxDup(g, row, col))
  {
    var row, col := boxRow * 3 + i, boxCol * 3 + j;
    BoxScanIndexOf(boxRow, boxCol, i, j);
    assert forall x :: BoxCoord(row, x) == BoxCoord(boxRow * 3, x);
    assert forall x :: BoxCoord(col, x) == BoxCoord(boxCol * 3, x);
  }

  /** Meeting cell (i, j) of a box extends the values seen by its value, when nonzero. */
  lemma BoxSeenStep(g: Grid, values: set<int>, boxRow: int, boxCol: int, i: int, j: int)
    requires IsBoard(g) && 0 <= boxRow < 3 && 0 <= boxCol < 3 && 0 <= i < 3 && 0 <= j < 3
    requires SeenInBox(g, values, boxRow, boxCol, i * 3 + j)
    ensures var v := g[boxRow * 3 + i][boxCol * 3 + j];
      SeenInBox(g, if v != 0 && v !in values then values + {v} else values, boxRow, boxCol, i * 3 + j + 1)
  {
    var v := g[boxRow * 3 + i][boxCol * 3 + j];
    BoxCorner(boxRow, i);
    BoxCorner(boxCol, j);
    assert v == g[BoxCoord(boxRow * 3, i)][BoxCoord(boxCol * 3, j)];
    var values' := if v != 0 && v !in values then values + {v} else values;
    assert forall w :: w in values' <==> w in values || (w != 0 && w == v);
    forall w
      ensures w in values' <==> (w != 0 && MetInBox(g, boxRow, boxCol, i * 3 + j + 1, w))
    {
      MetInBoxStep(g, boxRow, boxCol, i, j, w);
    }
  }

  /** Offset `k` from the first row (or column) of box `b`. */
  lemma BoxCorner(b: int, k: int)
    requires 0 <= b < 3
    ensures BoxCoord(b * 3, k) == b * 3 + k
  {
  }

  /** Passing cell (row, col) of the box scan, adding its key exactly when it is a box duplicate. */
  lemma BoxScanStep(g: Grid, errors0: set<string>, errors: set<string>, row: int, col: int, n: int, dup: bool)
    requires IsBoard(g) && InBounds(row, col) && BoxScanIndex(row, col) == n
    requires BoxScanUpTo(g, errors0, errors, n)
    requires dup <==> BoxDup(g, row, col)
    ensures BoxScanUpTo(g, errors0, if dup then errors + {CellKey(row, col)} else errors, n + 1)
  {
    forall r, c | InBounds(r, c) && BoxScanIndex(r, c) == n
      ensures r == row && c == col
    {
      BoxScanIndexInjective(r, c, row, col);
    }
  }

  /**
   * The error scan: the key `r{row}c{col}` is in the result iff cell (row, col)
   * is nonzero and an earlier cell of its row, column or box holds the same
   * value; the result holds no other string.
   */
  method GetBoardErrors(board: Board) returns (errors: set<string>)
    requires IsBoard(board)
    ensures forall k :: k in errors ==> IsCellKey(k)
    ensures forall r, c :: InBounds(r, c) ==>
      (HasCellError(r, c, board, errors) <==> Flagged(Values(board), r, c))
  {
    errors := {};
    errors := AddRowErrors(board, errors);
    errors := AddColumnErrors(board, errors);
    errors := AddBoxErrors(board, errors);
  }

  /**
   * An error set as the scan returns it is empty exactly when the board has
   * no two equal nonzero values in one row, column or box.
   */
  lemma NoErrorsIffNoConflicts(board: Board, errors: set<string>)
    requires IsBoard(board)
    requires forall k :: k in errors ==> IsCellKey(k)
    requires forall r, c :: InBounds(r, c) ==>
      (HasCellError(r, c, board, errors) <==> Flagged(Values(board), r, c))
    ensures errors == {} <==> NoConflicts(Values(board))
  {
    NoFlagsIffNoConflicts(Values(board));
    if errors != {} {
      var k :| k in errors;
      CellKeyDecode(k);
      assert HasCellError(DigitValue(k[1]), DigitValue(k[3]), board, errors);
    }
  }

  /** JavaScript's `%` on integers: the remainder takes the sign of the dividend. */
  function JsRemainder(a: int, b: int): (r: int)
    requires b > 0
    ensures a >= 0 ==> r == a % b
    ensures a < 0 ==> -b < r <= 0
  {
    if a >= 0 then a % b else -((-a) % b)
  }

  /** A count written in decimal and zero-padded to two characters, as the timer shows each part. */
  function TwoDigits(n: int): (p: string)
    ensures |p| >= 2
    ensures 0 <= n < 100 ==> |p| == 2
    ensures n >= 10 ==> p[0] != '0'
    ensures n >= 0 ==> AllDigits(p) && ParseNat(p) == n
  {
    var s := IntToString(n);
    if n >= 0 then
      PadStartKeepsValue(NatToString(n), 2);
      ParseNatToString(n);
      PadStart(s, 2, '0')
    else
      PadStart(s, 2, '0')
  }

  /**
   * The timer display `MM:SS`: the floored minutes and the seconds remainder,
   * each written in decimal and zero-padded to two characters.
   */
  function FormatTime(seconds: int): (t: string)
    ensures |t| >= 5
    ensures 0 <= seconds < 6000 ==> |t| == 5
  {
    TwoDigits(seconds / 60) + ":" + TwoDigits(JsRemainder(seconds, 60))
  }

  /**
   * Reading a timer display back: minutes (at least two digits), a colon and
   * two digits of seconds below 60, worth minutes * 60 + seconds; anything
   * else is not a display.
   */
  function ParseClock(t: string): (r: Option<nat>)
    ensures r.Some? ==> |t| >= 5 && t[|t| - 3] == ':'
  {
    if |t| >= 5 && t[|t| - 3] == ':' && AllDigits(t[..|t| - 3]) && AllDigits(t[|t| - 2..])
       && ParseNat(t[|t| - 2..]) < 60
    then Some(ParseNat(t[..|t| - 3]) * 60 + ParseNat(t[|t| - 2..]))
    else None
  }

  /** Minutes and seconds joined by a colon read back as their worth in seconds. */
  lemma ParseClockJoin(m: string, s: string, mins: nat, secs: nat)
    requires AllDigits(m) && |m| >= 2 && ParseNat(m) == mins
    requires AllDigits(s) && |s| == 2 && ParseNat(s) == secs && secs < 60
    ensures ParseClock(m + ":" + s) == Some(mins * 60 + secs)
  {
    ColonSplit(m, s);
  }

  /** The parts around the colon of a display are where `ParseClock` looks for them. */
  lemma ColonSplit(m: string, s: string)
    requires |m| >= 2 && |s| == 2
    ensures var t := m + ":" + s;
      |t| >= 5 && t[|t| - 3] == ':' && t[..|t| - 3] == m && t[|t| - 2..] == s
  {
    var t := m + ":" + s;
    assert t[..|t| - 3] == m;
    assert t[|t| - 2..] == s;
  }

  /** For a non-negative count the display is the minutes and the remaining seconds, joined. */
  lemma FormatTimeJoins(seconds: int)
    requires seconds >= 0
    ensures FormatTime(seconds) == TwoDigits(seconds / 60) + ":" + TwoDigits(seconds % 60)
  {
    assert JsRemainder(seconds, 60) == seconds % 60;
  }

  /** The timer display of a non-negative count of seconds reads back as that count. */
  lemma FormatTimeReadsBack(seconds: int)
    requires seconds >= 0
    ensures ParseClock(FormatTime(seconds)) == Some(seconds)
  {
    var mins, secs := seconds / 60, seconds % 60;
    assert mins * 60 + secs == seconds;
    FormatTimeJoins(seconds);
    ParseClockJoin(TwoDigits(mins), TwoDigits(secs), mins, secs);
  }

}

=== FILE: sudoku_rules.dfy ===
/**
 * The Sudoku rules over a grid of plain numbers, as the engine's number
 * matrices hold them: what a legal placement is, when a grid has no
 * row/column/box conflict, which cells the error scan flags, and what it means
 * for one grid to complete another.
 */
module SudokuRules {
  import opened Schema

  /** A number matrix; `0` is an empty cell. */
  type Grid = seq<seq<int>>

  /** The numbers of a board's cells, position by position. */
  function Values(b: Board): (g: Grid)
    requires IsBoard(b)
    ensures IsBoard(g)
    ensures forall r, c :: InBounds(r, c) ==> g[r][c] == b[r][c].value
  {
    seq(Size, r requires 0 <= r < Size => seq(Size, c requires 0 <= c < Size => b[r][c].value))
  }

  /** The grid with cell (row, col) set to `v`. */
  function SetValue(g: Grid, row: int, col: int, v: int): (g': Grid)
    requires IsBoard(g) && InBounds(row, col)
    ensures IsBoard(g')
    ensures forall r, c :: InBounds(r, c) ==> g'[r][c] == if r == row && c == col then v else g[r][c]
  {
    g[row := g[row][col := v]]
  }

  /** The all-zero grid the generator starts from. */
  function ZeroGrid(): (g: Grid)
    ensures IsBoard(g) && forall r, c :: InBounds(r, c) ==> g[r][c] == 0
  {
    seq(Size, _ => seq(Size, _ => 0))
  }

  /**
   * Coordinate `k` (0..2) inside the box that holds coordinate `x`: the box's
   * origin `x / 3 * 3` plus `k`.
   */
  function BoxCoord(x: int, k: int): int {
    x / 3 * 3 + k
  }

  /** Two cells share a row, a column or a 3x3 box. */
  predicate SameUnit(r1: int, c1: int, r2: int, c2: int) {
    r1 == r2 || c1 == c2 || (r1 / 3 == r2 / 3 && c1 / 3 == c2 / 3)
  }

  /**
   * `n` occurs nowhere in row `row`, nowhere in column `col` and nowhere in the
   * 3x3 box whose top-left cell is (row / 3 * 3, col / 3 * 3); cell (row, col)
   * itself is looked at too.
   */
  predicate CanPlace(g: Grid, row: int, col: int, n: int)
    requires IsBoard(g) && InBounds(row, col)
  {
    && (forall x :: 0 <= x < Size ==> g[row][x] != n)
    && (forall x :: 0 <= x < Size ==> g[x][col] != n)
    && (forall i, j :: 0 <= i < 3 && 0 <= j < 3 ==> g[BoxCoord(row, i)][BoxCoord(col, j)] != n)
  }

  /** No two distinct cells of one row, column or box hold the same nonzero value. */
  ghost predicate NoConflicts(g: Grid)
    requires IsBoard(g)
  {
    forall r1, c1, r2, c2 ::
      InBounds(r1, c1) && InBounds(r2, c2) && (r1 != r2 || c1 != c2) &&
      SameUnit(r1, c1, r2, c2) && g[r1][c1] != 0
      ==> g[r1][c1] != g[r2][c2]
  }

  /** A solved grid: every cell a digit 1..9 and no conflict. */
  ghost predicate IsSolution(g: Grid)
    requires IsBoard(g)
  {
    (forall r, c :: InBounds(r, c) ==> 1 <= g[r][c] <= 9) && NoConflicts(g)
  }

  /** `g` keeps every nonzero cell of `g0` and puts a digit 1..9 in each of its zero cells. */
  ghost predicate Completes(g0: Grid, g: Grid)
    requires IsBoard(g0) && IsBoard(g)
  {
    forall r, c :: InBounds(r, c) ==>
      if g0[r][c] != 0 then g[r][c] == g0[r][c] else 1 <= g[r][c] <= 9
  }

  /**
   * What backtracking promises on success: `g` completes `g0`, and creates no
   * conflict when `g0` had none.
   */
  ghost predicate FilledFrom(g0: Grid, g: Grid)
    requires IsBoard(g0) && IsBoard(g)
  {
    Completes(g0, g) && (NoConflicts(g0) ==> NoConflicts(g))
  }

  /** The positions of the zero cells. */
  ghost function Empties(g: Grid): set<(int, int)>
    requires IsBoard(g)
  {
    set r, c | 0 <= r < Size && 0 <= c < Size && g[r][c] == 0 :: (r, c)
  }

  /** Cell (r, c) is nonzero and an earlier cell of its row (smaller column) holds its value. */
  predicate RowDup(g: Grid, r: int, c: int)
    requires IsBoard(g) && InBounds(r, c)
  {
    g[r][c] != 0 && exists c' :: 0 <= c' < c && g[r][c'] == g[r][c]
  }

  /** Cell (r, c) is nonzero and an earlier cell of its column (smaller row) holds its value. */
  predicate ColDup(g: Grid, r: int, c: int)
    requires IsBoard(g) && InBounds(r, c)
  {
    g[r][c] != 0 && exists r' :: 0 <= r' < r && g[r'][c] == g[r][c]
  }

  /**
   * Cell (r, c) is nonzero and a cell before it in its box, in the box's
   * row-major order, holds its value.
   */
  predicate BoxDup(g: Grid, r: int, c: int)
    requires IsBoard(g) && InBounds(r, c)
  {
    g[r][c] != 0 &&
    exists i, j :: 0 <= i < 3 && 0 <= j < 3 && i * 3 + j < (r % 3) * 3 + c % 3 &&
      g[BoxCoord(r, i)][BoxCoord(c, j)] == g[r][c]
  }

  /**
   * The place of cell (r, c) in the box scan: boxes row by row, and the cells
   * of a box row by row.
   */
  function BoxScanIndex(r: int, c: int): int {
    ((r / 3) * 3 + c / 3) * 9 + (r % 3) * 3 + c % 3
  }

  lemma BoxScanIndexOf(boxRow: int, boxCol: int, i: int, j: int)
    requires 0 <= boxRow < 3 && 0 <= boxCol < 3 && 0 <= i < 3 && 0 <= j < 3
    ensures (boxRow * 3 + i) / 3 == boxRow && (boxRow * 3 + i) % 3 == i
    ensures (boxCol * 3 + j) / 3 == boxCol && (boxCol * 3 + j) % 3 == j
    ensures BoxScanIndex(boxRow * 3 + i, boxCol * 3 + j) == boxRow * 27 + boxCol * 9 + i * 3 + j
  {
  }

  /** Distinct cells have distinct places in the box scan. */
  lemma BoxScanIndexInjective(r1: int, c1: int, r2: int, c2: int)
    requires InBounds(r1, c1) && InBounds(r2, c2)
    requires BoxScanIndex(r1, c1) == BoxScanIndex(r2, c2)
    ensures r1 == r2 && c1 == c2
  {
    BoxArithmetic(r1);
    BoxArithmetic(c1);
    BoxArithmetic(r2);
    BoxArithmetic(c2);
    var b1, p1 := (r1 / 3) * 3 + c1 / 3, (r1 % 3) * 3 + c1 % 3;
    var b2, p2 := (r2 / 3) * 3 + c2 / 3, (r2 % 3) * 3 + c2 % 3;
    assert b1 == b2 && p1 == p2;
    assert r1 / 3 == r2 / 3 && c1 / 3 == c2 / 3;
    assert r1 % 3 == r2 % 3 && c1 % 3 == c2 % 3;
  }

  /** The error scan flags (r, c): it repeats an earlier value of its row, column or box. */
  predicate Flagged(g: Grid, r: int, c: int)
    requires IsBoard(g) && InBounds(r, c)
  {
    RowDup(g, r, c) || ColDup(g, r, c) || BoxDup(g, r, c)
  }

  lemma BoxArithmetic(r: int)
    requires 0 <= r < Size
    ensures r == BoxCoord(r, r % 3) && 0 <= r / 3 < 3
    ensures forall i :: 0 <= i < 3 ==> BoxCoord(r, i) / 3 == r / 3 && BoxCoord(r, i) % 3 == i
  {
  }

  /**
   * The placement check is the unit rule: `n` may go at (row, col) iff no cell
   * sharing a row, column or box with it, itself included, holds `n`.
   */
  lemma CanPlaceIffNoPeerHolds(g: Grid, row: int, col: int, n: int)
    requires IsBoard(g) && InBounds(row, col)
    ensures CanPlace(g, row, col, n) <==>
      forall r, c :: InBounds(r, c) && SameUnit(row, col, r, c) ==> g[r][c] != n
  {
    if CanPlace(g, row, col, n) {
      forall r, c | InBounds(r, c) && SameUnit(row, col, r, c)
        ensures g[r][c] != n
      {
        CanPlaceExcludesPeer(g, row, col, n, r, c);
      }
    } else {
      BoxArithmetic(row);
      BoxArithmetic(col);
    }
  }

  /** A cell sharing a unit with (row, col) is one the placement check looks at. */
  lemma CanPlaceExcludesPeer(g: Grid, row: int, col: int, n: int, r: int, c: int)
    requires IsBoard(g) && InBounds(row, col) && InBounds(r, c) && SameUnit(row, col, r, c)
    requires CanPlace(g, row, col, n)
    ensures g[r][c] != n
  {
    if r != row && c != col {
      BoxArithmetic(r);
      BoxArithmetic(c);
      assert r == BoxCoord(row, r % 3) && c == BoxCoord(col, c % 3);
      assert g[BoxCoord(row, r % 3)][BoxCoord(col, c % 3)] != n;
    }
  }

  /** Writing a value the placement check accepts keeps a conflict-free grid conflict-free. */
  lemma PlaceKeepsNoConflicts(g: Grid, row: int, col: int, n: int)
    requires IsBoard(g) && InBounds(row, col)
    requires NoConflicts(g) && CanPlace(g, row, col, n)
    ensures NoConflicts(SetValue(g, row, col, n))
  {
    CanPlaceIffNoPeerHolds(g, row, col, n);
    var g' := SetValue(g, row, col, n);
    forall r1, c1, r2, c2 |
      InBounds(r1, c1) && InBounds(r2, c2) && (r1 != r2 || c1 != c2) &&
      SameUnit(r1, c1, r2, c2) && g'[r1][c1] != 0
      ensures g'[r1][c1] != g'[r2][c2]
    {
      if r1 == row && c1 == col {
        assert SameUnit(row, col, r2, c2);
      } else if r2 == row && c2 == col {
        assert SameUnit(row, col, r1, c1);
      }
    }
  }

  /** Filling one zero cell with a digit and then completing the result completes the original. */
  lemma CompletesAfterPlace(g0: Grid, row: int, col: int, n: int, g: Grid)
    requires IsBoard(g0) && IsBoard(g) && InBounds(row, col)
    requires g0[row][col] == 0 && 1 <= n <= 9
    requires Completes(SetValue(g0, row, col, n), g)
    ensures Completes(g0, g)
  {
    var g1 := SetValue(g0, row, col, n);
    forall r, c | InBounds(r, c)
      ensures if g0[r][c] != 0 then g[r][c] == g0[r][c] else 1 <= g[r][c] <= 9
    {
      assert g1[r][c] == if r == row && c == col then n else g0[r][c];
    }
  }

  /**
   * One backtracking step: placing an accepted digit in a zero cell and then
   * filling the result fills the original grid.
   */
  lemma FilledAfterPlace(g0: Grid, row: int, col: int, n: int, g: Grid)
    requires IsBoard(g0) && IsBoard(g) && InBounds(row, col)
    requires g0[row][col] == 0 && 1 <= n <= 9 && CanPlace(g0, row, col, n)
    requires FilledFrom(SetValue(g0, row, col, n), g)
    ensures FilledFrom(g0, g)
  {
    CompletesAfterPlace(g0, row, col, n, g);
    if NoConflicts(g0) {
      PlaceKeepsNoConflicts(g0, row, col, n);
    }
  }

  /** A grid without zero cells fills itself. */
  lemma FullGridFilledFromItself(g: Grid)
    requires IsBoard(g)
    requires forall r, c :: InBounds(r, c) ==> g[r][c] != 0
    ensures FilledFrom(g, g)
  {
  }

  /** Filling a zero cell with a nonzero value removes exactly that cell from the empty ones. */
  lemma PlaceShrinksEmpties(g: Grid, row: int, col: int, n: int)
    requires IsBoard(g) && InBounds(row, col) && g[row][col] == 0 && n != 0
    ensures Empties(SetValue(g, row, col, n)) == Empties(g) - {(row, col)}
    ensures |Empties(SetValue(g, row, col, n))| < |Empties(g)|
  {
    var e, e' := Empties(g), Empties(SetValue(g, row, col, n));
    assert (row, col) in e;
    assert e' == e - {(row, col)};
    assert e == e' + {(row, col)};
  }

  /** On a conflict-free grid the error scan flags nothing. */
  lemma NoConflictsNoFlags(g: Grid, r: int, c: int)
    requires IsBoard(g) && InBounds(r, c) && NoConflicts(g)
    ensures !Flagged(g, r, c)
  {
    BoxArithmetic(r);
    BoxArithmetic(c);
  }

  /** Of two equal nonzero cells of one box, the box scan flags the one it reaches second. */
  lemma LaterBoxDuplicateFlagged(g: Grid, r1: int, c1: int, r2: int, c2: int)
    requires IsBoard(g) && InBounds(r1, c1) && InBounds(r2, c2)
    requires r1 / 3 == r2 / 3 && c1 / 3 == c2 / 3
    requires (r1 % 3) * 3 + c1 % 3 < (r2 % 3) * 3 + c2 % 3
    requires g[r2][c2] != 0 && g[r1][c1] == g[r2][c2]
    ensures BoxDup(g, r2, c2)
  {
    BoxArithmetic(r1);
    BoxArithmetic(c1);
    assert BoxCoord(r2, r1 % 3) == r1 && BoxCoord(c2, c1 % 3) == c1;
  }

  /** Of two equal nonzero cells sharing a unit, the scan flags one. */
  lemma ConflictIsFlagged(g: Grid, r1: int, c1: int, r2: int, c2: int)
    requires IsBoard(g) && InBounds(r1, c1) && InBounds(r2, c2) && (r1 != r2 || c1 != c2)
    requires SameUnit(r1, c1, r2, c2) && g[r1][c1] != 0 && g[r1][c1] == g[r2][c2]
    ensures Flagged(g, r1, c1) || Flagged(g, r2, c2)
  {
    if r1 == r2 {
      if c1 < c2 { assert RowDup(g, r2, c2); } else { assert RowDup(g, r1, c1); }
    } else if c1 == c2 {
      if r1 < r2 { assert ColDup(g, r2, c2); } else { assert ColDup(g, r1, c1); }
    } else {
      BoxArithmetic(r1);
      BoxArithmetic(c1);
      BoxArithmetic(r2);
      BoxArithmetic(c2);
      if (r1 % 3) * 3 + c1 % 3 < (r2 % 3) * 3 + c2 % 3 {
        LaterBoxDuplicateFlagged(g, r1, c1, r2, c2);
      } else {
        LaterBoxDuplicateFlagged(g, r2, c2, r1, c1);
      }
    }
  }

  /** The error scan flags no cell iff the grid has no conflict. */
  lemma NoFlagsIffNoConflicts(g: Grid)
    requires IsBoard(g)
    ensures (forall r, c :: InBounds(r, c) ==> !Flagged(g, r, c)) <==> NoConflicts(g)
  {
    if NoConflicts(g) {
      forall r, c | InBounds(r, c) ensures !Flagged(g, r, c) {
        NoConflictsNoFlags(g, r, c);
      }
    } else {
      var r1, c1, r2, c2 :|
        InBounds(r1, c1) && InBounds(r2, c2) && (r1 != r2 || c1 != c2) &&
        SameUnit(r1, c1, r2, c2) && g[r1][c1] != 0 && g[r1][c1] == g[r2][c2];
      ConflictIsFlagged(g, r1, c1, r2, c2);
    }
  }

  /**
   * Only later occurrences are flagged: a cell whose value no cell before it in
   * row-major order holds is never flagged.
   */
  lemma FirstOccurrenceNotFlagged(g: Grid, r: int, c: int)
    requires IsBoard(g) && InBounds(r, c)
    requires forall r', c' :: InBounds(r', c') && (r' < r || (r' == r && c' < c)) ==> g[r'][c'] != g[r][c]
    ensures !Flagged(g, r, c)
  {
    BoxArithmetic(r);
    BoxArithmetic(c);
  }

  /** Of two equal nonzero cells in one row, the one further right is flagged. */
  lemma LaterRowDuplicateFlagged(g: Grid, r: int, c1: int, c2: int)
    requires IsBoard(g) && InBounds(r, c1) && InBounds(r, c2) && c1 < c2
    requires g[r][c1] == g[r][c2] != 0
    ensures Flagged(g, r, c2)
  {
    assert RowDup(g, r, c2);
  }

  /** Completing the all-zero grid without creating a conflict yields a solution. */
  lemma CompletedZeroGridIsSolution(g: Grid)
    requires IsBoard(g) && Completes(ZeroGrid(), g) && NoConflicts(g)
    ensures IsSolution(g)
  {
    forall r, c | InBounds(r, c) ensures 1 <= g[r][c] <= 9 {
      assert ZeroGrid()[r][c] == 0;
    }
  }
}

=== FILE: wrappers.dfy ===
/** Optional values: the model's stand-in for `undefined` and `null` results. */
module Wrappers {

  datatype Option<+T> = None | Some(value: T) {

    /** The wrapped value, or `default` when there is none (JavaScript's `x || default`). */
    function GetOr(default: T): T {
      match this
      case Some(v) => v
      case None => default
    }
  }
}
